=== FILE: README.md ===
# Product catalogue migration, image upload and small Python exercises

This project is a Dafny model of the core of a collection of Azure Functions
apps and Python exercises.

**The migration.** A durable orchestrator moves product documents from a
Cosmos DB container into two Azure SQL tables, `Products` and `ProductTags`.
- The batch reader (`BatchReader`) returns pages of at most 1000 documents and a continuation token.
- The batch writer (`BatchWriter`) flattens a page into product rows and tag rows, upserts the products with a MERGE and replaces the tags of the batch's products, all in one transaction.
  - The class `BatchWriter.SqlDatabase` holds the two tables. Its method `WriteBatch` updates them in place.
- The orchestrator (`Orchestrator`) resumes its state from its input, reads one page, writes it, and counts it as migrated or failed. It then continues as new with the next token, or completes with a migration report.
  - A write that raises is caught and counted as a failed page. A read that raises is outside the `try`: it fails the whole orchestration, with nothing counted, no table changed and no continuation. `Step` and `Run` then return an error.
  - `Orchestrator.Step` is one invocation against a `SqlDatabase`.
  - `Orchestrator.Run` is the chain of invocations.
  - Both are proved against the functions `StepSpec` and `RunSpec`.
- `Documents` models the untyped JSON documents, Python's `str()`, and the part of `float()` the writer relies on.

**The image upload.** An HTTP endpoint (`ImgUpload`):
- accepts a multipart form;
- takes the filename from the first part whose Content-Disposition names a file;
- accepts only `.png`, `.jpg` and `.jpeg`, in any case;
- uploads the blob and queues a resize message with the widths 320 and 1024.

**The Python exercises:**
- the `BankAccount` class (`Bank`), with a balance that deposits and withdrawals update in place;
- `is_prime` by trial division up to the integer square root (`Primes`);
- the even-number filter with its descending sort (`EvenOdd`);
- the vowel-count dictionary (`VowelDict`);
- the split, tuple, set and sorted pipeline (`TokenSet`).

`PyText` holds the Python string operations these rely on: `split()`, `strip()`, `lower()`, `find`, `rfind`, `replace` and `str(int)`.

**The MERGE's parameter limit.** The writer binds four parameters per product row into one MERGE statement. SQL Server accepts at most 2100 parameters in a request, so a batch of more than 525 rows always fails, whatever the store's state. Every page of more than 525 documents with bindable names and categories therefore fails to write and is counted as failed (`Orchestrator.OversizedPageFails`), however the reader sized it.

The model's reader fills every page with 1000 documents until the last. Cosmos DB treats `max_item_count=1000` only as an upper bound: it may return shorter pages, or an empty page with a continuation token. Under the model's paging:
- a completed migration migrates at most the documents of its last, partial page (`Orchestrator.MigratesOnlyLastPage`);
- a migration without failures needs at most 525 documents left to read (`Orchestrator.WritableOnlySmall`).

pyodbc also cannot bind a list or a dict, so a document whose `name` or `category` is one fails its whole batch. The model's `BatchWriter.StatementError` gives these errors in the order the code issues its statements.

**Tag replacement: the model follows the code.** The repository's description of the writer says the tags of every product in a batch are deleted and then re-inserted. The code (`write_to_sql/__init__.py:73`) does this only when the batch has at least one tag row. A batch whose documents carry no tags therefore leaves `ProductTags` untouched, even for products it updates. `BatchWriter.UntaggedBatchKeepsTags` states this case. `BatchWriter.TaggedNeighbourClearsTags` states the other side: a product without tags loses its old tags when another document in the same batch has tags.

## Model

| member | source | states |
|---|---|---|
| BatchWriter.ProductRows | function_app_assessment/9th_question_data_migration/write_to_sql/__init__.py:20-31 | one product row per document, in input order |
| BatchWriter.Flatten | function_app_assessment/9th_question_data_migration/write_to_sql/__init__.py:20-36 | the loops build exactly the product rows of every document and the tag rows of every list-valued `tags`, in document order |
| BatchWriter.ProductRowOf | function_app_assessment/9th_question_data_migration/write_to_sql/__init__.py:24-31 | a missing id becomes "None", a missing name "Unknown", a missing category "Uncategorized"; a missing, null, dict or list price becomes 0.0; an int or float price keeps its value |
| BatchWriter.NonNumericPrice | function_app_assessment/9th_question_data_migration/write_to_sql/__init__.py:26-29 | in this model a price string without an ASCII digit fails to convert and is stored as 0.0 |
| Documents.IntTextRoundTrip | function_app_assessment/9th_question_data_migration/write_to_sql/__init__.py:27 | `float()` of an integer's decimal text is that integer, the same as `float()` of the integer itself |
| Documents.ToFloat | function_app_assessment/9th_question_data_migration/write_to_sql/__init__.py:27-29 | null, lists and dicts raise TypeError and nothing else does; only a string can raise ValueError; ints and floats convert exactly, and True and False give 1.0 and 0.0 |
| Documents.NoDigitNotNumeric | function_app_assessment/9th_question_data_migration/write_to_sql/__init__.py:26-29 | in this model `float()` of a string without an ASCII digit raises ValueError |
| PyText.NatToStringRoundTrip | function_app_assessment/9th_question_data_migration/write_to_sql/__init__.py:24 | the decimal text `str()` gives a natural number denotes that number |
| BatchWriter.TagRows | function_app_assessment/9th_question_data_migration/write_to_sql/__init__.py:33-36 | there are no tag rows exactly when no document has a list-valued `tags` with an element |
| BatchWriter.AppendTagRows | function_app_assessment/9th_question_data_migration/write_to_sql/__init__.py:33-36 | the inner loop appends exactly the document's tag rows, one per element of a list-valued `tags`, in order |
| BatchWriter.TagRowsOfBatch | function_app_assessment/9th_question_data_migration/write_to_sql/__init__.py:33-36 | every tag row belongs to a product of the same batch |
| BatchWriter.BatchIdsOf | function_app_assessment/9th_question_data_migration/write_to_sql/__init__.py:24-31 | every document's id is among the batch's product ids |
| BatchWriter.SqlDatabase.constructor | function_app_assessment/9th_question_data_migration/write_to_sql/__init__.py:41 | a connection to the two given tables |
| BatchWriter.SqlDatabase.WriteBatch | function_app_assessment/9th_question_data_migration/write_to_sql/__init__.py:16-93 | the activity's report, or its error, and the new tables are exactly those the transactional write `Write` gives for the old tables; the statements fail in the order the code issues them |
| BatchWriter.WriteEmptyBatch | function_app_assessment/9th_question_data_migration/write_to_sql/__init__.py:16-17 | an empty batch reports "No items to process." and leaves both tables as they were |
| BatchWriter.WriteFailsAtomically | function_app_assessment/9th_question_data_migration/write_to_sql/__init__.py:39-93 | a non-empty write succeeds exactly when the store does not fail and the batch is writable: names and categories bindable, at most 525 rows, distinct ids; a failure re-raises the store's error when there is one and commits nothing |
| BatchWriter.Write | function_app_assessment/9th_question_data_migration/write_to_sql/__init__.py:16-93 | a failed write leaves both tables as they were; an empty batch reports "No items to process." and changes nothing |
| BatchWriter.MergeRowsFit | function_app_assessment/9th_question_data_migration/write_to_sql/__init__.py:58-71 | the MERGE's four parameters per row stay within SQL Server's 2100 exactly when the batch has at most 525 rows |
| BatchWriter.StatementError | function_app_assessment/9th_question_data_migration/write_to_sql/__init__.py:47-71 | the statements raise nothing exactly when the batch is writable; a bindable batch of more than 525 rows raises the too-many-parameters error |
| BatchWriter.LargeBatchFails | function_app_assessment/9th_question_data_migration/write_to_sql/__init__.py:58-71 | a batch of more than 525 bindable rows fails with the too-many-parameters error and commits nothing, even when the store itself does not fail |
| BatchWriter.WriteCounts | function_app_assessment/9th_question_data_migration/write_to_sql/__init__.py:44-56 | "updated" counts the batch ids already in Products, "inserted" the new ones, together the batch count; "tags_inserted" is the number of tag rows |
| BatchWriter.DistinctIdsCard | function_app_assessment/9th_question_data_migration/write_to_sql/__init__.py:49-56 | the set of ids is no larger than the rows, and as large exactly when the ids are distinct, so the counts add up |
| BatchWriter.WriteCommits | function_app_assessment/9th_question_data_migration/write_to_sql/__init__.py:81-88 | a successful non-empty write commits the merged products and replaced tags; an empty one commits nothing |
| BatchWriter.UpsertKeys | function_app_assessment/9th_question_data_migration/write_to_sql/__init__.py:61-71 | after the MERGE the product ids are the old ones plus the batch's, and every product outside the batch is unchanged |
| BatchWriter.Upsert | function_app_assessment/9th_question_data_migration/write_to_sql/__init__.py:61-71 | the merged table's ids are the old ids plus the batch's |
| BatchWriter.UpsertValues | function_app_assessment/9th_question_data_migration/write_to_sql/__init__.py:61-71 | with distinct ids, every batch row is stored under its id with its name, price and category, inserted or updated |
| BatchWriter.UpsertBatch | function_app_assessment/9th_question_data_migration/write_to_sql/__init__.py:58-71 | the merged table holds every document's row under its id, keeps every other product, and has no other keys |
| BatchWriter.UpsertTwice | function_app_assessment/9th_question_data_migration/write_to_sql/__init__.py:61-71 | merging the same rows twice gives the table one merge gives |
| BatchWriter.ReplacedTags | function_app_assessment/9th_question_data_migration/write_to_sql/__init__.py:73-80 | without tag rows ProductTags is kept as it was; with them, the batch products' tags are exactly the batch's tag rows and every other product keeps its tags |
| BatchWriter.ReplaceTags | function_app_assessment/9th_question_data_migration/write_to_sql/__init__.py:73-79 | after delete-then-insert the batch products' tags are exactly the new rows, and the other products' tags are untouched |
| BatchWriter.WriteTags | function_app_assessment/9th_question_data_migration/write_to_sql/__init__.py:73-80 | without tag rows ProductTags is unchanged; with them, the batch products' tags are exactly the batch's tag rows and every other product keeps its tags |
| BatchWriter.ShrunkTagsReplaceOld | function_app_assessment/9th_question_data_migration/write_to_sql/__init__.py:73-79 | a product whose tags shrink from a, b to a keeps only the tag a |
| BatchWriter.UntaggedBatchKeepsTags | function_app_assessment/9th_question_data_migration/write_to_sql/__init__.py:73-80 | a batch without tag rows keeps a product's old tags even though its document now has none |
| BatchWriter.TaggedNeighbourClearsTags | function_app_assessment/9th_question_data_migration/write_to_sql/__init__.py:73-79 | once any document in the batch has tags, a batch product whose document has none loses its old tags |
| BatchWriter.WriteReplay | function_app_assessment/9th_question_data_migration/write_to_sql/__init__.py:16-93 | replaying a batch after a write leaves the tables a single successful write of it would leave; a failed replay changes nothing |
| BatchWriter.WriteIdempotent | function_app_assessment/9th_question_data_migration/write_to_sql/__init__.py:16-93 | writing the same batch twice leaves the same tables as writing it once |
| BatchReader.ReadPage | 9th_question/read_cosmos/__init__.py:23-58 | a page holds at most 1000 consecutive documents from the token's position; `count` is their number; a next token is given exactly when documents remain; an exhausted container gives the empty page |
| BatchReader.ReadAll | 9th_question/read_cosmos/__init__.py:38-58 | following the tokens gives at least one page, starting with the page at the token; every page but the last is a full page of 1000 with a next token, and the last has none |
| BatchReader.ReadAllStep | 9th_question/read_cosmos/__init__.py:38-58 | following the tokens starts with the page read at the token; the last page has no next token and holds all that remain |
| BatchReader.ReadAllCovers | 9th_question/read_cosmos/__init__.py:36-51 | following the tokens yields every remaining document once and in order, and the page counts add up to their number |
| BatchReader.ReadAllPageCount | 9th_question/read_cosmos/__init__.py:24-51 | with the model's full pages of 1000, the number of pages is the remaining documents divided by 1000, rounded up, or one empty page when none remain |
| Orchestrator.Resume | 9th_question/Orchestrator/__init__.py:18-26 | with no input the state starts empty; otherwise it is the input's, and a missing or zero start time is replaced by the clock |
| Orchestrator.Step | 9th_question/Orchestrator/__init__.py:17-68 | one invocation returns, and leaves the database in, exactly the outcome and tables `StepSpec` gives for the old tables |
| Orchestrator.StepSpec | 9th_question/Orchestrator/__init__.py:28-68 | an invocation fails exactly when its read raises, with that error and no table changed; otherwise it continues exactly when the reader gave a next token, and carries that token; the tables change only when the page is non-empty |
| Orchestrator.Record | 9th_question/Orchestrator/__init__.py:36-46 | one report is appended and the earlier ones kept; the page count lands in exactly one of migrated and failed; an empty page adds a null report, a written page its report, a failed page a failure record with its error and count |
| Orchestrator.Finish | 9th_question/Orchestrator/__init__.py:48-68 | it continues exactly when there is a next token, with that token and the start time; the totals, failures and reports are carried; the completed report's duration runs from the start time |
| Orchestrator.WritePage | 9th_question/Orchestrator/__init__.py:37-45 | an empty page never reaches the writer and changes nothing; a failed write changes no table; a non-empty page is written exactly when the store does not fail and its rows are writable |
| Orchestrator.WriteAndCount | 9th_question/Orchestrator/__init__.py:36-46 | a non-empty page is written and counted as migrated or as failed; every page appends one report |
| Orchestrator.StepAccounting | 9th_question/Orchestrator/__init__.py:37-68 | an invocation that does not fail appends one report; migrated plus failed grows by the page count; it continues exactly when the reader gave a next token, carrying that token and the start time; the completed report's duration runs from the start time |
| Orchestrator.StepEmptyPage | 9th_question/Orchestrator/__init__.py:37-46 | an empty page changes no table; unless the read fails, it counts nothing and appends a null report; under the model's paging, where an empty page is the last, the invocation completes |
| Orchestrator.StepWritesPage | 9th_question/Orchestrator/__init__.py:38-45 | a non-empty page's write succeeds exactly when the store does not fail and the page is writable; a migrated page adds its count to the total; a failed write changes no table and counts the whole page as failed, with its error |
| Orchestrator.OversizedPageFails | 9th_question/Orchestrator/__init__.py:38-45 | a page of more than 525 bindable documents is never migrated: the invocation changes no table and counts the whole page as failed, with the store's error or the too-many-parameters error |
| Orchestrator.StepMigratesPartial | 9th_question/Orchestrator/__init__.py:38-45 | with bindable documents an invocation migrates nothing from a page of more than 525, and at most the page from a smaller one |
| Orchestrator.ResumeContinued | 9th_question/Orchestrator/__init__.py:18-57 | the state passed to the next invocation is resumed unchanged; under the model's paging, where a continuing page is full, fewer documents remain after it |
| Orchestrator.StepRetry | 9th_question/Orchestrator/__init__.py:29-46 | re-running an invocation on the tables it produced leaves them unchanged |
| Orchestrator.Run | 9th_question/Orchestrator/__init__.py:18-68 | the chain of invocations from an empty input returns the report or the read error, and leaves the database in the tables, that `RunSpec` gives |
| Orchestrator.RunSpec | 9th_question/Orchestrator/__init__.py:18-68 | the chain completes exactly when no read along the continuation tokens raises |
| Orchestrator.ReadFailureExample | 9th_question/Orchestrator/__init__.py:29-34 | a read that raises at the first page ends the orchestration with that error and the tables unchanged |
| Orchestrator.RunTotals | 9th_question/Orchestrator/__init__.py:37-67 | a chain that completes accounts for every remaining document as migrated or failed, keeps the earlier reports, adds one per page, and measures the duration from the start time |
| Orchestrator.MigrateAll | 9th_question/Orchestrator/__init__.py:18-67 | a fresh migration completes exactly when no read raises; then it counts every document as migrated or failed and measures from the first clock reading; with the model's full pages of 1000 it reports one batch per 1000 documents rounded up (one for an empty container) |
| Orchestrator.RunWithoutFaults | 9th_question/Orchestrator/__init__.py:38-41 | without store failures and with every page writable, the chain completes, nothing fails and every remaining document is migrated |
| Orchestrator.WritableOnlySmall | 9th_question/Orchestrator/__init__.py:38-45 | with the model's full pages of 1000, every page is writable only when at most 525 documents remain, so a fault-free migration needs a container that small |
| Orchestrator.MigratesOnlyLastPage | 9th_question/Orchestrator/__init__.py:37-68 | with bindable documents and the model's full pages of 1000, a completed chain migrates at most the remainder after the full pages, the documents left modulo 1000 |
| Orchestrator.PageBindable | 9th_question/read_cosmos/__init__.py:38-51 | a page of a container whose documents are bindable holds only bindable documents |
| Orchestrator.StepWithoutFaults | 9th_question/Orchestrator/__init__.py:38-41 | without store failures and with every page writable, one invocation succeeds, migrates its page and fails nothing; under the model's paging that page holds every remaining document and the invocation completes |
| Orchestrator.FailedWriteExample | 9th_question/Orchestrator/__init__.py:42-45 | one document whose write times out completes with 0 migrated, 1 failure and a single failure report, and the tables unchanged |
| Orchestrator.MigrateEmpty | 9th_question/Orchestrator/__init__.py:37-68 | an empty container whose read does not raise completes with nothing migrated, one null report and the tables unchanged |
| Orchestrator.AfterPreserves | 9th_question/Orchestrator/__init__.py:51-57 | any quantity each continuation preserves holds for the state reached after any number of invocations |
| Orchestrator.RunFromNext | 9th_question/Orchestrator/__init__.py:51-57 | continuing from the checkpoint one invocation leaves gives the final report and tables the run from before it gives |
| Orchestrator.ResumeFromCheckpoint | 9th_question/Orchestrator/__init__.py:18-57 | resuming from the checkpoint any number of invocations reach ends in the same report and tables as the uninterrupted run |
| ImgUpload.SplitExt | 2nd_que_storage_queue/img_upload/init.py:11 | the extension is empty or the suffix of the name from its last dot, with no further dot or slash; it is non-empty exactly when that dot lies in the last path component after some character other than a dot, so "..png" and "a/.png" have none |
| ImgUpload.IsImage | 2nd_que_storage_queue/img_upload/init.py:10-12 | an accepted name ends, in some case, with .png, .jpg or .jpeg after at least one other character |
| ImgUpload.ExtensionOf | 2nd_que_storage_queue/img_upload/init.py:10-12 | for a plain name followed by one extension, that extension is the one checked, and the file is an image exactly when it lower-cases to an allowed one |
| ImgUpload.SplitExtLower | 2nd_que_storage_queue/img_upload/init.py:11 | lower-casing the name and taking its extension commute |
| ImgUpload.CaseInsensitive | 2nd_que_storage_queue/img_upload/init.py:10-12 | the image check gives the same answer for a name and its lower-cased form |
| ImgUpload.UpperCaseAccepted | 2nd_que_storage_queue/img_upload/init.py:11 | "A.PNG" is an image: case is ignored |
| ImgUpload.LastExtensionRejected | 2nd_que_storage_queue/img_upload/init.py:11 | "x.png.exe" is not an image: only the last extension counts |
| ImgUpload.DotFileRejected | 2nd_que_storage_queue/img_upload/init.py:11 | ".png" has no extension and is not an image |
| PyText.LowerTwice | 2nd_que_storage_queue/img_upload/init.py:11 | lower-casing twice is lower-casing once |
| ImgUpload.FirstFilePart | 2nd_que_storage_queue/img_upload/init.py:53-58 | the part found is the first whose disposition contains "filename="; none is found exactly when no part's does |
| ImgUpload.FindFile | 2nd_que_storage_queue/img_upload/init.py:53-58 | no file is found exactly when no part's disposition contains "filename="; a found filename has no double quote |
| ImgUpload.FirstFileWins | 2nd_que_storage_queue/img_upload/init.py:53-58 | once a part names a file, the parts after it do not matter |
| ImgUpload.SkipsUnnamedParts | 2nd_que_storage_queue/img_upload/init.py:53-58 | parts that name no file before the first that does are skipped |
| ImgUpload.FilenameOf | 2nd_que_storage_queue/img_upload/init.py:56 | the filename has no double quote and only characters of the text after `filename=`; that text, when it has no surrounding whitespace and no quote, is the filename |
| ImgUpload.FilenameOfSpan | 2nd_que_storage_queue/img_upload/init.py:56 | the filename is the part of the text after `filename=` that lies between its surrounding whitespace, with every `"` removed and the other characters kept in order |
| PyText.SplitSecond | 2nd_que_storage_queue/img_upload/init.py:56 | `split(sep)[1]` is the text that starts right after the first separator and ends at the end of the string or at the next separator; it holds no separator and only characters of the string |
| PyText.Strip | 2nd_que_storage_queue/img_upload/init.py:56 | stripping removes the leading and trailing whitespace and nothing else: the result is a contiguous part of the string, everything before and after it is whitespace, and it neither starts nor ends with whitespace |
| PyText.StripNoSpace | 2nd_que_storage_queue/img_upload/init.py:56 | stripping a string with no surrounding whitespace leaves it unchanged |
| PyText.RemoveAll | 2nd_que_storage_queue/img_upload/init.py:56 | removing a character leaves none of it and keeps every other character as often as it occurs |
| PyText.RemoveAllAppend | 2nd_que_storage_queue/img_upload/init.py:56 | removal works piece by piece over a concatenation, so the kept characters stay in their order |
| ImgUpload.QuotedFilename | 2nd_que_storage_queue/img_upload/init.py:56 | `filename="name"` yields exactly `name` |
| ImgUpload.FormOutcomes | 2nd_que_storage_queue/img_upload/init.py:50-73 | a form is refused with 400 exactly when it carries no non-empty image file; 200 with a resize message exactly when it does and the upload succeeds; 500 otherwise |
| ImgUpload.HandleOutcomes | 2nd_que_storage_queue/img_upload/init.py:34-78 | the status is 200, 400 or 500; 200, with the message for widths 320 and 1024, exactly when storage is reachable, the form is uploadable and the upload succeeds; 400 exactly for a non-multipart request or a decoded form with nothing to upload |
| ImgUpload.Handle | 2nd_que_storage_queue/img_upload/init.py:34-78 | the status is 200, 400 or 500; a resize message, naming the uploaded blob's URL with widths 320 and 1024, is queued exactly with 200; an unreachable storage account gives 500 with its error; 200 needs a multipart request that decodes |
| ImgUpload.HandleForm | 2nd_que_storage_queue/img_upload/init.py:50-73 | the status is 200, 400 or 500; a resize message for the uploaded URL is queued exactly with 200; 500 comes only from an upload error, whose text is the body |
| ImgUpload.NonImageRejected | 2nd_que_storage_queue/img_upload/init.py:63-64 | a named, non-empty file that is not an image gets 400 "Only images allowed" and queues nothing |
| ImgUpload.AcceptQuoted | 2nd_que_storage_queue/img_upload/init.py:46-73 | a multipart form with one quoted image name and some content is uploaded and answered "Uploaded name" with a queued resize message |
| Bank.BankAccount.constructor | Python/oops_10.py:9-11 | an account holds the given holder and opening balance |
| Bank.BankAccount.Open | Python/oops_10.py:9-11 | an account opened without a balance starts at 0.0 |
| Bank.BankAccount.Deposit | Python/oops_10.py:12-17 | the new balance is the deposit's effect on the old one |
| Bank.BankAccount.Withdraw | Python/oops_10.py:18-23 | the new balance is the withdrawal's effect on the old one |
| Bank.BankAccount.GetBalance | Python/oops_10.py:24-25 | returns the current balance |
| Bank.DepositEffect | Python/oops_10.py:12-17 | exactly a positive amount is added; anything else changes nothing; a deposit never lowers the balance |
| Bank.WithdrawEffect | Python/oops_10.py:18-23 | exactly an amount strictly between 0 and the balance is taken, leaving it positive; any other amount, the full balance included, changes nothing |
| Bank.NeverNegative | Python/oops_10.py:12-23 | no sequence of deposits and withdrawals takes a non-negative balance below zero or a positive one to zero |
| Bank.ApplyAppend | Python/oops_10.py:12-23 | applying two sequences of transactions one after the other is applying them together |
| Bank.Script | Python/oops_10.py:27-30 | opening with 1000, depositing 500 and withdrawing 20 leaves 1480 |
| Primes.ISqrt | Python/prime.py:12 | the integer square root r satisfies r*r <= n < (r+1)*(r+1) |
| Primes.IsPrime | Python/prime.py:8-16 | the result is true exactly when n is prime |
| Primes.NoSmallDivisor | Python/prime.py:12-16 | no divisor up to the square root means no proper divisor at all |
| Primes.SmallPrimes | Python/prime.py:8-16 | 2 and 3 are prime; 1, 0, -7, 4 and 9 are not |
| EvenOdd.IsEven | Python/even_odd.py:8-12 | `n % 2 == 0` exactly when n is twice an integer, negative numbers included |
| EvenOdd.EvenNumbers | Python/even_odd.py:14-19 | the result is the input's even numbers, in order, sorted in descending order |
| EvenOdd.SortDescSpec | Python/even_odd.py:19 | the descending sort is non-increasing and a permutation of its input |
| EvenOdd.EvensMultiplicity | Python/even_odd.py:15-18 | every even input occurs in the filtered list as often as in the input, and no odd number occurs |
| EvenOdd.EvenNumbersSpec | Python/even_odd.py:15-19 | the output is non-increasing, all even, and holds every even input with its multiplicity |
| VowelDict.BuildWordDict | Python/dict.py:8-16 | the loops build the dictionary of each word's vowel count, later occurrences reassigning earlier ones |
| VowelDict.VowelsExactly | Python/dict.py:9 | the vowels are a, e, i, o, u in either case, and y is not one |
| VowelDict.VowelCountBound | Python/dict.py:12-15 | a word's count is at most its length |
| VowelDict.VowelCountAppend | Python/dict.py:12-15 | the count of a concatenation is the sum of the counts |
| VowelDict.VowelCountPositions | Python/dict.py:12-15 | the count is the number of positions holding a vowel |
| VowelDict.WordDictContents | Python/dict.py:11-16 | the keys are exactly the distinct words, each mapped to its own vowel count |
| VowelDict.WordDictRepeat | Python/dict.py:16 | repeating a word does not change the dictionary |
| PyText.Split | Python/ex_3.py:8 | `split()` yields only non-empty tokens without whitespace |
| PyText.SplitJoin | Python/ex_3.py:8 | splitting a single-space join of tokens gives back those tokens |
| TokenSet.SortedDistinct | Python/ex_3.py:18-23 | the sorted set is strictly ascending and holds exactly the input's tokens |
| TokenSet.AscendingUnique | Python/ex_3.py:23 | two strictly ascending lists with the same elements are equal, so the sorted set depends only on the set |
| TokenSet.Pipeline | Python/ex_3.py:8-23 | the tuple is the line's tokens; the final list is strictly ascending, holds exactly those tokens, and is the only such list |

## Left out

- The Cosmos SDK's paging is not modelled. The container is a snapshot sequence of documents, and a continuation token is the offset of the next page. Pages hold 1000 documents until the last.
- Orchestrator.MigrateAll, Orchestrator.WritableOnlySmall, Orchestrator.MigratesOnlyLastPage, BatchReader.ReadAllPageCount: their page counts and bounds hold for the model's paging only. Cosmos DB may return pages shorter than 1000, or an empty page with a continuation token. The program may then migrate pages of 525 documents or fewer before the end and take more invocations. `Orchestrator.OversizedPageFails` does not depend on the paging.
- Orchestrator.StepEmptyPage: "completes" holds for the model's paging only. An empty Cosmos DB page that carries a continuation token makes the program continue as new.
- Orchestrator.ResumeContinued: "fewer documents remain" holds for the model's paging only. An empty continuing Cosmos DB page makes no progress.
- Orchestrator.StepWithoutFaults: "reads every remaining document in one page" and "completes" hold for the model's paging only. A short writable Cosmos DB page can carry a continuation token, and then more pages follow.
- The reader's parallel fetching, named in its comments, is not in its code and is not modelled.
- pyodbc, the connection string and SQL text are left out. The two tables are a map from product id to record and a sequence of tag rows, so duplicate tag rows are kept as a bag would keep them.
- A store failure, such as a lost connection or a constraint violation, is a parameter of the write. It raises before anything is committed.
- The MERGE's error on a batch that repeats a product id is modelled as a failed write, because ProductId is the table's key.
- BatchWriter.Upsert: product ids compare exactly. SQL Server's usual collation ignores case and trailing spaces, so ids such as "A" and "a " are one key there and two keys here; the existence count, the duplicate check and the tag deletion compare the same way.
- BatchWriter.StatementError: the limit is taken as 2100 bound parameters per request, so 525 rows are writable. The driver sends a parameterised statement through `sp_prepexec` or `sp_executesql`, and that procedure's own arguments may count toward the limit, which would make 524 rows the largest writable batch. The results about more than 525 rows hold either way.
- BatchWriter.StatementError: only the parameter limit, unbindable lists and dicts, and repeated ids make the statements fail. Other values the driver or server refuses, such as a price that is NaN or infinite or an integer name beyond 64 bits, are not modelled; a store failure passed as a parameter covers them.
- The Durable Functions runtime is left out: replay, activity retries, and the serialisation of inputs and results. A read that raises makes an invocation return its error; a write that raises is caught, as in the code.
- `time.time()` is left out. The clock is two parameters: `now`, read at every start, and `later`, read at completion.
- Orchestrator.Resume: reads only the fields it models. A malformed input dictionary, with wrong field types, is not modelled.
- The blob service, container and queue clients are left out. A failure to reach them, and the upload's URL or error, are parameters of the request handler.
- The multipart decoder is left out. The decoded parts, or the decoder's error, are part of the request.
- A header that is not valid UTF-8 is not modelled: `.decode()` errors are left out.
- PyText.Lower: only ASCII letters are lower-cased; Python's Unicode case mapping is not modelled.
- Documents.Str: floats, lists and dicts are rendered as fixed placeholder strings rather than Python's repr.
- Documents.ToFloat: accepts an optional sign, ASCII digits and at most one point. Python also accepts exponents, "nan", "inf", "Infinity", surrounding whitespace, underscores and non-ASCII digits; the model rejects them, so such a price is stored as 0.0 where Python would store a number.
- Python's `bool` as a number is modelled, since `float(True)` is 1.0. Arbitrary-precision floats are modelled as exact reals.
- Primes.IsPrime: the loop bound is the exact integer square root. `int(n**0.5)` computes it in floating point, which can be off for very large n, and `n**0.5` raises OverflowError for n of 2**1024 or more; the model answers for every n.
- `input()`, `print()` and the script plumbing around the exercises are left out; inputs are parameters.
- The `print` messages of `deposit` and `withdraw` are left out.
- Python dictionaries keep insertion order; VowelDict's map does not record it.
- `account_holder` is a constant field, since nothing reassigns it.
- Bank.BankAccount: amounts and balances are exact reals. Python accepts ints and floats; the rounding of float arithmetic is not modelled.
- Logging and `os.environ` are left out.
- The other files of the repository are not part of this model: machine learning, plotting, pandas, numpy, the other OOP exercise and the image resizer.

=== FILE: bank_account.dfy ===
/**
 * `BankAccount`: an account holder and a private balance that deposits and
 * withdrawals update in place, each guarded by a validity check. Python
 * accepts any number here, ints and floats alike; amounts and balances are
 * exact reals.
 */
module Bank {

  /** The balance after `deposit(amount)`: only a positive amount is added. */
  function Deposited(balance: real, amount: real): real {
    if amount > 0.0 then balance + amount else balance
  }

  /** The balance after `withdraw(amount)`: only an amount strictly between 0 and the balance is taken. */
  function Withdrawn(balance: real, amount: real): real {
    if 0.0 < amount < balance then balance - amount else balance
  }

  class BankAccount {
    const accountHolder: string
    var balance: real

    /** `BankAccount(account_holder, balance)`. */
    constructor (accountHolder: string, balance: real)
      ensures this.accountHolder == accountHolder && this.balance == balance
    {
      this.accountHolder := accountHolder;
      this.balance := balance;
    }

    /** `BankAccount(account_holder)`: the balance defaults to 0. */
    constructor Open(accountHolder: string)
      ensures this.accountHolder == accountHolder && balance == 0.0
    {
      this.accountHolder := accountHolder;
      balance := 0.0;
    }

    method Deposit(amount: real)
      modifies this`balance
      ensures balance == Deposited(old(balance), amount)
    {
      if amount > 0.0 {
        balance := balance + amount;
      }
    }

    method Withdraw(amount: real)
      modifies this`balance
      ensures balance == Withdrawn(old(balance), amount)
    {
      if 0.0 < amount < balance {
        balance := balance - amount;
      }
    }

    /** `get_balance()`: reads the balance and changes nothing. */
    method GetBalance() returns (b: real)
      ensures b == balance
    {
      b := balance;
    }
  }

  /** A deposit adds exactly a positive amount, and leaves the balance unchanged otherwise. */
  lemma DepositEffect(balance: real, amount: real)
    ensures amount > 0.0 ==> Deposited(balance, amount) == balance + amount
    ensures amount <= 0.0 ==> Deposited(balance, amount) == balance
    ensures Deposited(balance, amount) >= balance
  {
  }

  /**
   * A withdrawal takes exactly the amount when `0 < amount < balance`, which
   * leaves the balance strictly positive. A non-positive amount, or one at
   * least the balance, including the full balance, is refused and changes
   * nothing.
   */
  lemma WithdrawEffect(balance: real, amount: real)
    ensures 0.0 < amount < balance ==> Withdrawn(balance, amount) == balance - amount > 0.0
    ensures amount <= 0.0 || amount >= balance ==> Withdrawn(balance, amount) == balance
    ensures Withdrawn(balance, balance) == balance
  {
  }

  datatype Transaction = DepositOf(amount: real) | WithdrawalOf(amount: real)

  /** The balance after a sequence of transactions, applied in order. */
  function Apply(balance: real, txs: seq<Transaction>): real
    decreases |txs|
  {
    if txs == [] then balance
    else
      var b := match txs[0]
        case DepositOf(a) => Deposited(balance, a)
        case WithdrawalOf(a) => Withdrawn(balance, a);
      Apply(b, txs[1..])
  }

  /**
   * No sequence of deposits and withdrawals takes a non-negative balance below
   * zero, and a positive balance never drops to zero or below.
   */
  lemma {:induction false} NeverNegative(balance: real, txs: seq<Transaction>)
    decreases |txs|
    ensures balance >= 0.0 ==> Apply(balance, txs) >= 0.0
    ensures balance > 0.0 ==> Apply(balance, txs) > 0.0
  {
    if txs != [] {
      var b := match txs[0]
        case DepositOf(a) => Deposited(balance, a)
        case WithdrawalOf(a) => Withdrawn(balance, a);
      assert b >= balance || (0.0 < b < balance);
      NeverNegative(b, txs[1..]);
    }
  }

  /** Applying one batch of transactions after another is applying them together. */
  lemma {:induction false} ApplyAppend(balance: real, first: seq<Transaction>, second: seq<Transaction>)
    decreases |first|
    ensures Apply(balance, first + second) == Apply(Apply(balance, first), second)
  {
    if first == [] {
      assert first + second == second;
    } else {
      assert (first + second)[0] == first[0];
      assert (first + second)[1..] == first[1..] + second;
      var b := match first[0]
        case DepositOf(a) => Deposited(balance, a)
        case WithdrawalOf(a) => Withdrawn(balance, a);
      ApplyAppend(b, first[1..], second);
    }
  }

  /** The module's script: open Mohan's account with 1000, deposit 500, withdraw 20; the balance is 1480. */
  method Script() returns (balance: real)
    ensures balance == 1480.0
  {
    var acc1 := new BankAccount("Mohan", 1000.0);
    acc1.Deposit(500.0);
    acc1.Withdraw(20.0);
    balance := acc1.GetBalance();
  }
}

=== FILE: batch_reader.dfy ===
/**
 * The `read_cosmos` activity: one page of `SELECT * FROM c` from the
 * container, resumed at a continuation token.
 *
 * The container is a snapshot sequence of documents; the SDK's paging with
 * `max_item_count = 1000` is modelled as cutting that sequence into pages of
 * 1000 documents, and a continuation token as the position where the next
 * page starts.
 */
module BatchReader {
  import opened Wrappers
  import opened Documents

  /** `batch_size`, passed to the query as `max_item_count`. */
  const BatchSize: nat := 1000

  /** A continuation token: the position in the container where the next page starts. */
  type Token = nat

  /** The activity's result `{items, next_token, count}`. */
  datatype Page = Page(items: seq<Document>, nextToken: Option<Token>, count: nat)

  /** Where reading resumes; an absent token reads from the start. */
  function Offset(token: Option<Token>): nat {
    match token
    case None => 0
    case Some(k) => k
  }

  /**
   * One page from the resume point: at most `BatchSize` consecutive documents,
   * `count == len(items)`, and a next token exactly when documents remain.
   * An exhausted or empty container gives the empty page rather than failing.
   */
  function ReadPage(source: seq<Document>, token: Option<Token>): (p: Page)
    ensures p.count == |p.items| <= BatchSize
    ensures Offset(token) >= |source| ==> p == Page([], None, 0)
    ensures Offset(token) < |source| ==>
      0 < p.count && Offset(token) + p.count <= |source|
      && p.items == source[Offset(token)..Offset(token) + p.count]
    ensures p.nextToken.Some? ==>
      p.count == BatchSize && p.nextToken.value == Offset(token) + p.count < |source|
    ensures p.nextToken.None? ==> Offset(token) + p.count >= |source|
  {
    var start := Offset(token);
    if start >= |source| then
      Page([], None, 0)
    else
      var end := if |source| - start <= BatchSize then |source| else start + BatchSize;
      var items := source[start..end];
      Page(items, if end < |source| then Some(end) else None, |items|)
  }

  /** Documents not yet read from the resume point. */
  function Remaining(source: seq<Document>, token: Option<Token>): nat {
    if Offset(token) < |source| then |source| - Offset(token) else 0
  }

  /**
   * The pages a reader sees when it follows the tokens from `token` until there
   * is none: the page at `token` first, every page but the last a full one that
   * hands on a token, and the last one without a token.
   */
  function ReadAll(source: seq<Document>, token: Option<Token>): (pages: seq<Page>)
    decreases Remaining(source, token)
    ensures |pages| > 0 && pages[0] == ReadPage(source, token)
    ensures pages[|pages| - 1].nextToken.None?
    ensures forall i :: 0 <= i < |pages| - 1 ==> pages[i].count == BatchSize && pages[i].nextToken.Some?
  {
    var p := ReadPage(source, token);
    if p.nextToken.None? then [p] else [p] + ReadAll(source, p.nextToken)
  }

  /** The first page, then the pages read from its next token on; the first page's count is taken off what remains. */
  lemma ReadAllStep(source: seq<Document>, token: Option<Token>)
    ensures var p := ReadPage(source, token);
      && ReadAll(source, token)[0] == p
      && (p.nextToken.None? ==> ReadAll(source, token) == [p] && Remaining(source, token) == p.count)
      && (p.nextToken.Some? ==>
            ReadAll(source, token) == [p] + ReadAll(source, p.nextToken)
            && Remaining(source, token) == p.count + Remaining(source, p.nextToken))
  {
  }

  function Concat(pages: seq<Page>): seq<Document> {
    if pages == [] then [] else pages[0].items + Concat(pages[1..])
  }

  function TotalCount(pages: seq<Page>): nat {
    if pages == [] then 0 else pages[0].count + TotalCount(pages[1..])
  }

  /**
   * Following the tokens returns every remaining document exactly once and in
   * order: the pages' items concatenate to the rest of the container, and their
   * counts add up to the number of documents left.
   */
  lemma {:induction false} ReadAllCovers(source: seq<Document>, token: Option<Token>)
    decreases Remaining(source, token)
    ensures Concat(ReadAll(source, token)) == source[|source| - Remaining(source, token)..]
    ensures TotalCount(ReadAll(source, token)) == Remaining(source, token)
  {
    var p := ReadPage(source, token);
    var pages := ReadAll(source, token);
    if p.nextToken.None? {
      assert pages == [p];
      assert pages[1..] == [];
      assert p.items + [] == p.items;
    } else {
      var rest := ReadAll(source, p.nextToken);
      ReadAllCovers(source, p.nextToken);
      assert pages[0] == p && pages[1..] == rest;
      var start := Offset(token);
      var next := p.nextToken.value;
      assert source[start..] == source[start..next] + source[next..];
    }
  }

  /** Under this model's paging, a full read sees one page per 1000 documents, rounded up, and at least one. */
  lemma {:induction false} ReadAllPageCount(source: seq<Document>, token: Option<Token>)
    decreases Remaining(source, token)
    ensures |ReadAll(source, token)| ==
      if Remaining(source, token) == 0 then 1
      else (Remaining(source, token) + BatchSize - 1) / BatchSize
  {
    var p := ReadPage(source, token);
    if p.nextToken.Some? {
      ReadAllPageCount(source, p.nextToken);
      var r := Remaining(source, token);
      assert Remaining(source, p.nextToken) == r - BatchSize;
      assert (r + BatchSize - 1) / BatchSize == (r - BatchSize + BatchSize - 1) / BatchSize + 1;
    }
  }
}

=== FILE: batch_writer.dfy ===
/**
 * The `write_to_sql` activity: flatten a batch of product documents into
 * Products rows and ProductTags rows, then, in one transaction, classify the
 * batch's ids as new or existing, MERGE the products by id and replace the
 * tags of the batch's products.
 *
 * The SQL store is two tables: Products keyed by ProductId (a map) and
 * ProductTags, a bag of (ProductId, Tag) rows kept as a sequence whose order
 * carries no meaning.
 */
module BatchWriter {
  import opened Wrappers
  import opened PyText
  import opened Documents

  datatype ProductRow = ProductRow(id: string, name: Value, price: real, category: Value)

  datatype TagRow = TagRow(productId: string, tag: string)

  /** A Products row without its key. */
  datatype ProductRecord = ProductRecord(name: Value, price: real, category: Value)

  datatype Tables = Tables(products: map<string, ProductRecord>, productTags: seq<TagRow>)

  /** What the activity returns: the "No items to process." status, or the Success statistics. */
  datatype WriteReport =
    | NoItems
    | Written(inserted: nat, updated: nat, tagsInserted: nat, batchCount: nat)

  /** The error SQL Server raises when one MERGE source names the same ProductId twice. */
  const DuplicateIdError: string := "MERGE source contains a ProductId more than once"

  /** SQL Server accepts at most 2100 parameters in one request. */
  const MaxParameters: nat := 2100

  /** The MERGE binds four parameters per row: `(?, ?, ?, ?)`. */
  const MergeParametersPerRow: nat := 4

  /** The most rows one MERGE can carry (`MergeRowsFit`). */
  const MaxMergeRows: nat := 525

  /** The error SQL Server raises for a request with more than 2100 parameters. */
  const TooManyParametersError: string := "The incoming request has too many parameters. The server supports a maximum of 2100 parameters."

  /** The error the ODBC driver raises for a parameter it cannot bind. */
  const UnsupportedParameterError: string := "Invalid parameter type"

  // ---------------------------------------------------------------- flattening

  /** `str(doc.get('id'))`: a missing id becomes "None". */
  function IdOf(doc: Document): string {
    Str(Get(doc, "id", NullV))
  }

  /** `float(doc.get('price', 0))`, with TypeError and ValueError turned into 0.0. */
  function PriceOf(doc: Document): real {
    match ToFloat(Get(doc, "price", IntV(0)))
    case Ok(r) => r
    case Err(_) => 0.0
  }

  /**
   * The product row of a document. A missing id becomes "None", a missing name
   * 'Unknown', a missing category 'Uncategorized'; the price is 0 when missing
   * and 0.0 when `float()` rejects it; present fields are kept as they are.
   */
  function ProductRowOf(doc: Document): (row: ProductRow)
    ensures row.id == (if "id" in doc then Str(doc["id"]) else "None")
    ensures row.name == (if "name" in doc then doc["name"] else StrV("Unknown"))
    ensures row.category == (if "category" in doc then doc["category"] else StrV("Uncategorized"))
    ensures "price" !in doc ==> row.price == 0.0
    ensures "price" in doc && doc["price"] in {NullV, ObjV} ==> row.price == 0.0
    ensures "price" in doc && doc["price"].ListV? ==> row.price == 0.0
    ensures "price" in doc && doc["price"].IntV? ==> row.price == doc["price"].i as real
    ensures "price" in doc && doc["price"].FloatV? ==> row.price == doc["price"].f
  {
    ProductRow(IdOf(doc), Get(doc, "name", StrV("Unknown")), PriceOf(doc),
               Get(doc, "category", StrV("Uncategorized")))
  }

  /** The elements of a list-valued `tags`; a missing or non-list `tags` has none. */
  function TagsOf(doc: Document): seq<Value> {
    match Get(doc, "tags", ListV([]))
    case ListV(ts) => ts
    case _ => []
  }

  function DocTagRows(doc: Document): seq<TagRow> {
    var ts := TagsOf(doc);
    seq(|ts|, k requires 0 <= k < |ts| => TagRow(IdOf(doc), Str(ts[k])))
  }

  /** `product_rows`: one row per document, in input order. */
  function ProductRows(items: seq<Document>): (rows: seq<ProductRow>)
    ensures |rows| == |items|
    ensures forall i :: 0 <= i < |items| ==> rows[i] == ProductRowOf(items[i])
  {
    if items == [] then []
    else ProductRows(items[..|items| - 1]) + [ProductRowOf(items[|items| - 1])]
  }

  /**
   * `tag_rows`: each document's tag rows, documents in input order. There are
   * none exactly when no document has a list-valued `tags` with an element.
   */
  function TagRows(items: seq<Document>): (rows: seq<TagRow>)
    ensures rows == [] <==> Untagged(items)
  {
    if items == [] then []
    else
      UntaggedSplit(items);
      TagRows(items[..|items| - 1]) + DocTagRows(items[|items| - 1])
  }

  /** No document has a list-valued `tags` with an element. */
  predicate Untagged(items: seq<Document>) {
    forall i :: 0 <= i < |items| ==> TagsOf(items[i]) == []
  }

  lemma UntaggedSplit(items: seq<Document>)
    requires items != []
    ensures Untagged(items) <==>
      Untagged(items[..|items| - 1]) && DocTagRows(items[|items| - 1]) == []
  {
    var init := items[..|items| - 1];
    assert forall i :: 0 <= i < |init| ==> init[i] == items[i];
    assert |DocTagRows(items[|items| - 1])| == |TagsOf(items[|items| - 1])|;
  }

  /** The flatten loop of the activity, with its inner loop over a document's tags. */
  method Flatten(items: seq<Document>) returns (productRows: seq<ProductRow>, tagRows: seq<TagRow>)
    ensures productRows == ProductRows(items)
    ensures tagRows == TagRows(items)
  {
    productRows, tagRows := [], [];
    for i := 0 to |items|
      invariant productRows == ProductRows(items[..i])
      invariant tagRows == TagRows(items[..i])
    {
      var doc := items[i];
      var pId := IdOf(doc);
      var pPrice := PriceOf(doc);
      productRows := productRows + [ProductRow(pId, Get(doc, "name", StrV("Unknown")), pPrice,
                                               Get(doc, "category", StrV("Uncategorized")))];
      tagRows := AppendTagRows(tagRows, doc, pId);
      FlattenStep(items, i);
    }
    assert items[..|items|] == items;
  }

  /** The inner loop of the flatten: one tag row per element of a list-valued `tags`. */
  method AppendTagRows(tagRows: seq<TagRow>, doc: Document, pId: string) returns (r: seq<TagRow>)
    requires pId == IdOf(doc)
    ensures r == tagRows + DocTagRows(doc)
  {
    r := tagRows;
    var tags := Get(doc, "tags", ListV([]));
    if tags.ListV? {
      for k := 0 to |tags.elems|
        invariant r == tagRows + DocTagRows(doc)[..k]
      {
        assert DocTagRows(doc)[..k + 1] == DocTagRows(doc)[..k] + [TagRow(pId, Str(tags.elems[k]))];
        r := r + [TagRow(pId, Str(tags.elems[k]))];
      }
      assert DocTagRows(doc)[..|tags.elems|] == DocTagRows(doc);
    } else {
      assert DocTagRows(doc) == [];
    }
  }

  lemma FlattenStep(items: seq<Document>, i: nat)
    requires i < |items|
    ensures ProductRows(items[..i + 1]) == ProductRows(items[..i]) + [ProductRowOf(items[i])]
    ensures TagRows(items[..i + 1]) == TagRows(items[..i]) + DocTagRows(items[i])
  {
    assert items[..i + 1][..i] == items[..i];
  }

  /** A textual price without a single ASCII digit in it is stored as 0.0. */
  lemma NonNumericPrice(doc: Document, s: string)
    requires "price" in doc && doc["price"] == StrV(s) && NoDigit(s)
    ensures ProductRowOf(doc).price == 0.0
  {
    NoDigitNotNumeric(s);
  }

  /** The ids of a set of rows, and the ids of a batch. */
  function IdSet(rows: seq<ProductRow>): set<string> {
    set r | r in rows :: r.id
  }

  predicate DistinctIds(rows: seq<ProductRow>) {
    forall i, j :: 0 <= i < j < |rows| ==> rows[i].id != rows[j].id
  }

  /** A value the driver can bind as a parameter: anything but a list or a dict. */
  predicate Bindable(v: Value) {
    !v.ListV? && !v.ObjV?
  }

  /** Every row's name and category can be bound. */
  predicate AllBindable(rows: seq<ProductRow>) {
    forall r :: r in rows ==> Bindable(r.name) && Bindable(r.category)
  }

  /**
   * The error the store raises on the statements for these rows, in the order
   * they run: the existence check binds one parameter per row, the MERGE binds
   * four per row and then refuses a ProductId its source repeats.
   */
  function StatementError(rows: seq<ProductRow>): (e: Option<string>)
    ensures e.None? <==> Writable(rows)
    ensures AllBindable(rows) && |rows| > MaxMergeRows ==> e == Some(TooManyParametersError)
  {
    if |rows| > MaxParameters then Some(TooManyParametersError)
    else if !AllBindable(rows) then Some(UnsupportedParameterError)
    else if |rows| > MaxMergeRows then Some(TooManyParametersError)
    else if !DistinctIds(rows) then Some(DuplicateIdError)
    else None
  }

  /** The MERGE's parameters for `n` rows fit in one request exactly when there are at most 525 rows. */
  lemma MergeRowsFit(n: nat)
    ensures MergeParametersPerRow * n <= MaxParameters <==> n <= MaxMergeRows
  {
  }

  /** Rows the store accepts: bindable, at most 525 of them, with distinct ids. */
  predicate Writable(rows: seq<ProductRow>) {
    AllBindable(rows) && |rows| <= MaxMergeRows && DistinctIds(rows)
  }

  /** Every tag row belongs to a product of the same batch, and there is one per list-valued tag. */
  lemma {:induction false} TagRowsOfBatch(items: seq<Document>)
    ensures forall k :: 0 <= k < |TagRows(items)| ==> TagRows(items)[k].productId in IdSet(ProductRows(items))
  {
    if items != [] {
      var init, last := items[..|items| - 1], items[|items| - 1];
      TagRowsOfBatch(init);
      var rows := ProductRows(items);
      assert rows == ProductRows(init) + [ProductRowOf(last)];
      assert IdSet(ProductRows(init)) <= IdSet(rows);
      assert IdOf(last) in IdSet(rows) by {
        assert rows[|rows| - 1].id == IdOf(last);
      }
      OwnedAppend(TagRows(init), DocTagRows(last), IdSet(rows));
    }
  }

  lemma OwnedAppend(a: seq<TagRow>, b: seq<TagRow>, ids: set<string>)
    requires forall k :: 0 <= k < |a| ==> a[k].productId in ids
    requires forall k :: 0 <= k < |b| ==> b[k].productId in ids
    ensures forall k :: 0 <= k < |a + b| ==> (a + b)[k].productId in ids
  {
    forall k | 0 <= k < |a + b| ensures (a + b)[k].productId in ids {
      if k >= |a| {
        assert (a + b)[k] == b[k - |a|];
      }
    }
  }

  // ---------------------------------------------------------------- table operations

  function RecordOf(row: ProductRow): ProductRecord {
    ProductRecord(row.name, row.price, row.category)
  }

  /**
   * The MERGE: every source row updates the row with its id, or is inserted when
   * there is none; no row is deleted, so the keys afterwards are the old keys
   * and the batch's ids.
   */
  function Upsert(products: map<string, ProductRecord>, rows: seq<ProductRow>): (merged: map<string, ProductRecord>)
    ensures merged.Keys == products.Keys + IdSet(rows)
    decreases |rows|
  {
    if rows == [] then products
    else
      assert IdSet(rows) == {rows[0].id} + IdSet(rows[1..]) by {
        assert forall r :: r in rows <==> r == rows[0] || r in rows[1..];
      }
      Upsert(products[rows[0].id := RecordOf(rows[0])], rows[1..])
  }

  /** `DELETE FROM ProductTags WHERE ProductId IN ids`. */
  function DeleteTagsFor(tags: seq<TagRow>, ids: set<string>): seq<TagRow> {
    if tags == [] then []
    else (if tags[0].productId in ids then [] else [tags[0]]) + DeleteTagsFor(tags[1..], ids)
  }

  /** The ProductTags rows of the products in `ids`, i.e. what a `WHERE ProductId IN ids` selects. */
  function TagsFor(tags: seq<TagRow>, ids: set<string>): seq<TagRow> {
    if tags == [] then []
    else (if tags[0].productId in ids then [tags[0]] else []) + TagsFor(tags[1..], ids)
  }

  /** `SELECT ProductId FROM Products WHERE ProductId IN ids`, as a set. */
  function ExistingIds(products: map<string, ProductRecord>, rows: seq<ProductRow>): set<string> {
    IdSet(rows) * products.Keys
  }

  // ---------------------------------------------------------------- the activity

  /**
   * The activity on a table state. An empty batch returns "No items to process."
   * without touching the store. A store failure raises and nothing is committed:
   * an injected `fault`, or an error the statements raise on the batch itself
   * (too many parameters, a list or dict value, a repeated id). Otherwise the
   * products are merged and, when the batch has tag rows, the tags of every
   * batch product are replaced by the batch's tag rows.
   */
  function Write(t: Tables, items: seq<Document>, fault: Option<string>): (r: (Result<WriteReport, string>, Tables))
    ensures r.0.Err? ==> r.1 == t
    ensures items == [] ==> r == (Ok(NoItems), t)
  {
    if items == [] then (Ok(NoItems), t)
    else if fault.Some? then (Err(fault.value), t)
    else
      match StatementError(ProductRows(items))
      case Some(e) => (Err(e), t)
      case None => (Ok(Stats(t.products, items)), Commit(t, items))
  }

  /** The statistics of a batch whose ids are distinct: inserted, updated, tags inserted, batch count. */
  function Stats(products: map<string, ProductRecord>, items: seq<Document>): WriteReport
    requires DistinctIds(ProductRows(items))
  {
    var rows := ProductRows(items);
    var existing := ExistingIds(products, rows);
    DistinctIdsCard(rows);
    SplitCard(IdSet(rows), products.Keys);
    Written(|rows| - |existing|, |existing|, |TagRows(items)|, |rows|)
  }

  /** The tables after the MERGE and the tag replacement are committed. */
  function Commit(t: Tables, items: seq<Document>): Tables {
    Tables(Upsert(t.products, ProductRows(items)), ReplacedTags(t.productTags, items))
  }

  /** ProductTags after the tag step: untouched when the batch has no tag rows. */
  function ReplacedTags(productTags: seq<TagRow>, items: seq<Document>): (r: seq<TagRow>)
    ensures var ids := IdSet(ProductRows(items));
      if TagRows(items) == [] then r == productTags
      else TagsFor(r, ids) == TagRows(items) && DeleteTagsFor(r, ids) == DeleteTagsFor(productTags, ids)
  {
    var tags := TagRows(items);
    if tags == [] then productTags
    else
      TagRowsOfBatch(items);
      ReplaceTags(productTags, tags, IdSet(ProductRows(items)));
      DeleteTagsFor(productTags, IdSet(ProductRows(items))) + tags
  }

  class SqlDatabase {
    var products: map<string, ProductRecord>
    var productTags: seq<TagRow>

    constructor (products: map<string, ProductRecord>, productTags: seq<TagRow>)
      ensures this.products == products && this.productTags == productTags
    {
      this.products := products;
      this.productTags := productTags;
    }

    function Snapshot(): Tables
      reads this
    {
      Tables(products, productTags)
    }

    /** `main(items)` of the activity: it changes the tables exactly as `Write` says, or not at all. */
    method WriteBatch(items: seq<Document>, fault: Option<string>) returns (r: Result<WriteReport, string>)
      modifies this
      ensures (r, Snapshot()) == Write(old(Snapshot()), items, fault)
    {
      if items == [] {
        return Ok(NoItems);
      }
      var productRows, tagRows := Flatten(items);
      if fault.Some? {
        return Err(fault.value);
      }
      // The existence check, one parameter per row.
      if |productRows| > MaxParameters {
        return Err(TooManyParametersError);
      }
      var existingIds := IdSet(productRows) * products.Keys;
      // The MERGE, four parameters per row.
      if !AllBindable(productRows) {
        return Err(UnsupportedParameterError);
      }
      MergeRowsFit(|productRows|);
      if MergeParametersPerRow * |productRows| > MaxParameters {
        return Err(TooManyParametersError);
      }
      if !DistinctIds(productRows) {
        return Err(DuplicateIdError);
      }
      DistinctIdsCard(productRows);
      SplitCard(IdSet(productRows), products.Keys);
      var inserted := |productRows| - |existingIds|;
      var updated := |existingIds|;
      ghost var before := Snapshot();
      products := Upsert(products, productRows);
      // Tags: delete the old rows of the batch's products, insert the new ones.
      var tagsInserted := 0;
      if tagRows != [] {
        productTags := DeleteTagsFor(productTags, IdSet(productRows)) + tagRows;
        tagsInserted := |tagRows|;
      }
      r := Ok(Written(inserted, updated, tagsInserted, |productRows|));
      WriteSucceeds(before, items, r.value, Snapshot());
    }
  }

  /** The spec of a write whose batch is non-empty, fault-free and writable, field by field. */
  lemma WriteSucceeds(t: Tables, items: seq<Document>, rep: WriteReport, t': Tables)
    requires items != [] && StatementError(ProductRows(items)).None?
    requires var ids := IdSet(ProductRows(items));
      && rep.Written?
      && rep.inserted == |ProductRows(items)| - |ids * t.products.Keys|
      && rep.updated == |ids * t.products.Keys|
      && rep.tagsInserted == |TagRows(items)|
      && rep.batchCount == |ProductRows(items)|
    requires t'.products == Upsert(t.products, ProductRows(items))
    requires t'.productTags == ReplacedTags(t.productTags, items)
    ensures Write(t, items, None) == (Ok(rep), t')
  {
    assert Stats(t.products, items) == rep;
    assert Commit(t, items) == t';
  }

  // ---------------------------------------------------------------- lemmas on sets of ids

  lemma {:induction false} DistinctIdsCard(rows: seq<ProductRow>)
    ensures DistinctIds(rows) ==> |IdSet(rows)| == |rows|
    ensures |IdSet(rows)| <= |rows|
  {
    if rows != [] {
      var tail := rows[1..];
      DistinctIdsCard(tail);
      IdSetCons(rows);
      if DistinctIds(rows) {
        DistinctTail(rows);
      }
    }
  }

  lemma IdSetCons(rows: seq<ProductRow>)
    requires rows != []
    ensures IdSet(rows) == {rows[0].id} + IdSet(rows[1..])
  {
    assert forall r :: r in rows <==> r == rows[0] || r in rows[1..];
  }

  /** Without the head, the ids stay distinct and none of them is the head's. */
  lemma DistinctTail(rows: seq<ProductRow>)
    requires rows != [] && DistinctIds(rows)
    ensures DistinctIds(rows[1..]) && rows[0].id !in IdSet(rows[1..])
  {
    var tail := rows[1..];
    forall i, j | 0 <= i < j < |tail| ensures tail[i].id != tail[j].id {
      assert tail[i] == rows[i + 1] && tail[j] == rows[j + 1];
    }
    forall r | r in tail ensures r.id != rows[0].id {
      var j :| 0 <= j < |tail| && tail[j] == r;
      assert rows[j + 1] == r;
    }
  }

  /** A set splits into the part inside `keys` and the part outside. */
  lemma SplitCard(ids: set<string>, keys: set<string>)
    ensures |ids * keys| + |ids - keys| == |ids|
  {
    assert ids == (ids * keys) + (ids - keys);
    assert (ids * keys) * (ids - keys) == {};
  }

  /** The ids of `ProductRows(items)` are the documents' ids. */
  lemma BatchIdsOf(items: seq<Document>, i: nat)
    requires i < |items|
    ensures IdOf(items[i]) in IdSet(ProductRows(items))
  {
    assert ProductRows(items)[i].id == IdOf(items[i]);
  }

  // ---------------------------------------------------------------- lemmas on Upsert

  lemma {:induction false} UpsertKeys(products: map<string, ProductRecord>, rows: seq<ProductRow>)
    ensures Upsert(products, rows).Keys == products.Keys + IdSet(rows)
    ensures forall k :: k in products && k !in IdSet(rows) ==> Upsert(products, rows)[k] == products[k]
    decreases |rows|
  {
    if rows != [] {
      var tail := rows[1..];
      UpsertKeys(products[rows[0].id := RecordOf(rows[0])], tail);
      assert IdSet(rows) == {rows[0].id} + IdSet(tail) by {
        assert forall r :: r in rows <==> r == rows[0] || r in tail;
      }
    }
  }

  lemma {:induction false} UpsertValues(products: map<string, ProductRecord>, rows: seq<ProductRow>)
    requires DistinctIds(rows)
    ensures forall i :: 0 <= i < |rows| ==>
      rows[i].id in Upsert(products, rows) && Upsert(products, rows)[rows[i].id] == RecordOf(rows[i])
    decreases |rows|
  {
    if rows != [] {
      var tail := rows[1..];
      var p1 := products[rows[0].id := RecordOf(rows[0])];
      assert DistinctIds(tail) by {
        forall i, j | 0 <= i < j < |tail| ensures tail[i].id != tail[j].id {
          assert tail[i] == rows[i + 1] && tail[j] == rows[j + 1];
        }
      }
      UpsertValues(p1, tail);
      UpsertKeys(p1, tail);
      assert rows[0].id !in IdSet(tail) by {
        forall r | r in tail ensures r.id != rows[0].id {
          var j :| 0 <= j < |tail| && tail[j] == r;
          assert rows[j + 1] == r;
        }
      }
      forall i | 0 <= i < |rows|
        ensures rows[i].id in Upsert(products, rows) && Upsert(products, rows)[rows[i].id] == RecordOf(rows[i])
      {
        if i > 0 {
          assert rows[i] == tail[i - 1];
        }
      }
    }
  }

  // ---------------------------------------------------------------- lemmas on the tag filters

  lemma {:induction false} FiltersAppend(a: seq<TagRow>, b: seq<TagRow>, ids: set<string>)
    ensures DeleteTagsFor(a + b, ids) == DeleteTagsFor(a, ids) + DeleteTagsFor(b, ids)
    ensures TagsFor(a + b, ids) == TagsFor(a, ids) + TagsFor(b, ids)
  {
    if a != [] {
      assert (a + b)[1..] == a[1..] + b;
      FiltersAppend(a[1..], b, ids);
    } else {
      assert a + b == b;
    }
  }

  lemma {:induction false} FiltersOfDeleted(tags: seq<TagRow>, ids: set<string>)
    ensures TagsFor(DeleteTagsFor(tags, ids), ids) == []
    ensures DeleteTagsFor(DeleteTagsFor(tags, ids), ids) == DeleteTagsFor(tags, ids)
  {
    if tags != [] {
      FiltersOfDeleted(tags[1..], ids);
      var head := if tags[0].productId in ids then [] else [tags[0]];
      FiltersAppend(head, DeleteTagsFor(tags[1..], ids), ids);
      if head != [] {
        assert head[1..] == [];
      }
    }
  }

  lemma {:induction false} FiltersOfOwned(tags: seq<TagRow>, ids: set<string>)
    requires forall k :: 0 <= k < |tags| ==> tags[k].productId in ids
    ensures TagsFor(tags, ids) == tags
    ensures DeleteTagsFor(tags, ids) == []
  {
    if tags != [] {
      FiltersOfOwned(tags[1..], ids);
      assert [tags[0]] + tags[1..] == tags;
    }
  }

  /** Deleting the batch's tags and inserting the batch's tag rows. */
  lemma ReplaceTags(previous: seq<TagRow>, rows: seq<TagRow>, ids: set<string>)
    requires forall k :: 0 <= k < |rows| ==> rows[k].productId in ids
    ensures TagsFor(DeleteTagsFor(previous, ids) + rows, ids) == rows
    ensures DeleteTagsFor(DeleteTagsFor(previous, ids) + rows, ids) == DeleteTagsFor(previous, ids)
  {
    FiltersAppend(DeleteTagsFor(previous, ids), rows, ids);
    FiltersOfDeleted(previous, ids);
    FiltersOfOwned(rows, ids);
    assert DeleteTagsFor(previous, ids) + [] == DeleteTagsFor(previous, ids);
  }

  // ---------------------------------------------------------------- properties of the activity

  /** An empty batch returns "No items to process." with nothing touched. */
  lemma WriteEmptyBatch(t: Tables, fault: Option<string>)
    ensures Write(t, [], fault) == (Ok(NoItems), t)
  {
  }

  /**
   * The write succeeds exactly when no fault is injected and the batch is
   * writable: bindable values, at most 525 rows, distinct ids. When the write
   * fails, no table changes (nothing is committed).
   */
  lemma WriteFailsAtomically(t: Tables, items: seq<Document>, fault: Option<string>)
    requires items != []
    ensures Write(t, items, fault).0.Ok? <==> fault.None? && Writable(ProductRows(items))
    ensures Write(t, items, fault).0.Err? ==> Write(t, items, fault).1 == t
    ensures fault.Some? ==> Write(t, items, fault).0 == Err(fault.value)
  {
  }

  /**
   * A batch of more than 525 documents with bindable values always fails, on the
   * MERGE's limit of 2100 parameters, whatever the store does; a full page of
   * 1000 documents is such a batch.
   */
  lemma LargeBatchFails(t: Tables, items: seq<Document>)
    requires |items| > MaxMergeRows && AllBindable(ProductRows(items))
    ensures Write(t, items, None) == (Err(TooManyParametersError), t)
  {
  }

  /**
   * The statistics of a successful write: `updated` is the number of batch ids
   * already in Products, `inserted` the number not yet there, so that
   * `inserted + updated == batch_count == len(items)`; `tags_inserted` is the
   * number of tag rows.
   */
  lemma WriteCounts(t: Tables, items: seq<Document>, fault: Option<string>)
    requires items != [] && Write(t, items, fault).0.Ok?
    ensures var rep := Write(t, items, fault).0.value;
      var ids := IdSet(ProductRows(items));
      && rep.Written?
      && rep.updated == |ids * t.products.Keys|
      && rep.inserted == |ids - t.products.Keys|
      && rep.inserted + rep.updated == rep.batchCount == |items|
      && rep.tagsInserted == |TagRows(items)|
  {
    var rows := ProductRows(items);
    var ids := IdSet(rows);
    assert Write(t, items, fault).0 == Ok(Stats(t.products, items));
    DistinctIdsCard(rows);
    SplitCard(ids, t.products.Keys);
  }

  /** A successful write commits exactly `Commit`'s tables. */
  lemma WriteCommits(t: Tables, items: seq<Document>, fault: Option<string>)
    requires Write(t, items, fault).0.Ok?
    ensures items != [] ==> Write(t, items, fault).1 == Commit(t, items)
    ensures items == [] ==> Write(t, items, fault).1 == t
  {
  }

  /**
   * The MERGE of a batch with distinct ids: every batch id holds its document's
   * (name, price, category), the rows of other ids are as before, and no row is lost.
   */
  lemma UpsertBatch(products: map<string, ProductRecord>, items: seq<Document>)
    requires DistinctIds(ProductRows(items))
    ensures var p := Upsert(products, ProductRows(items));
      && p.Keys == products.Keys + IdSet(ProductRows(items))
      && (forall i :: 0 <= i < |items| ==> IdOf(items[i]) in p && p[IdOf(items[i])] == RecordOf(ProductRowOf(items[i])))
      && (forall k :: k in products && k !in IdSet(ProductRows(items)) ==> p[k] == products[k])
  {
    var rows := ProductRows(items);
    var p := Upsert(products, rows);
    UpsertKeys(products, rows);
    UpsertValues(products, rows);
    forall i | 0 <= i < |items|
      ensures IdOf(items[i]) in p && p[IdOf(items[i])] == RecordOf(ProductRowOf(items[i]))
    {
      assert rows[i] == ProductRowOf(items[i]);
    }
  }

  /**
   * The tags after a successful write: with tag rows, the rows of the batch's
   * products are exactly the batch's tag rows and the other products' rows are
   * as before; without tag rows, ProductTags is untouched.
   */
  lemma WriteTags(t: Tables, items: seq<Document>, fault: Option<string>)
    requires items != [] && Write(t, items, fault).0.Ok?
    ensures var ids := IdSet(ProductRows(items));
      var tags := Write(t, items, fault).1.productTags;
      if TagRows(items) == [] then tags == t.productTags
      else
        && TagsFor(tags, ids) == TagRows(items)
        && DeleteTagsFor(tags, ids) == DeleteTagsFor(t.productTags, ids)
  {
    TagRowsOfBatch(items);
    if TagRows(items) != [] {
      ReplaceTags(t.productTags, TagRows(items), IdSet(ProductRows(items)));
    }
  }

  /**
   * Replaying a batch is safe: a second write of the same batch that succeeds
   * leaves the tables exactly as a single successful write would, whatever the
   * first attempt did; one that fails leaves them as the first attempt left them.
   */
  lemma WriteReplay(t: Tables, items: seq<Document>, first: Option<string>, second: Option<string>)
    ensures var t1 := Write(t, items, first).1;
      var (r2, t2) := Write(t1, items, second);
      && (r2.Ok? ==> t2 == Write(t, items, second).1)
      && (r2.Err? ==> t2 == t1)
  {
    var t1 := Write(t, items, first).1;
    if items != [] && second.None? && StatementError(ProductRows(items)).None? {
      var rows := ProductRows(items);
      var ids := IdSet(rows);
      UpsertTwice(t.products, rows);
      if Write(t, items, first).0.Ok? && TagRows(items) != [] {
        TagRowsOfBatch(items);
        FiltersAppend(DeleteTagsFor(t.productTags, ids), TagRows(items), ids);
        FiltersOfDeleted(t.productTags, ids);
        FiltersOfOwned(TagRows(items), ids);
        assert DeleteTagsFor(t.productTags, ids) + [] == DeleteTagsFor(t.productTags, ids);
      }
    }
  }

  /** Idempotence: writing the same batch twice leaves the tables as writing it once. */
  lemma WriteIdempotent(t: Tables, items: seq<Document>, fault: Option<string>)
    ensures Write(Write(t, items, fault).1, items, fault).1 == Write(t, items, fault).1
  {
    WriteReplay(t, items, fault, fault);
  }

  lemma {:induction false} UpsertTwice(products: map<string, ProductRecord>, rows: seq<ProductRow>)
    requires DistinctIds(rows)
    ensures Upsert(Upsert(products, rows), rows) == Upsert(products, rows)
  {
    var once := Upsert(products, rows);
    var twice := Upsert(once, rows);
    UpsertKeys(products, rows);
    UpsertKeys(once, rows);
    UpsertValues(products, rows);
    UpsertValues(once, rows);
    forall k | k in twice ensures k in once && twice[k] == once[k] {
      if k in IdSet(rows) {
        var r :| r in rows && r.id == k;
        var i :| 0 <= i < |rows| && rows[i] == r;
      }
    }
  }

  // ---------------------------------------------------------------- worked examples

  /** Tag replacement is destructive: tags ["a", "b"] rewritten as ["a"] leave only ("p", "a"). */
  lemma ShrunkTagsReplaceOld()
    ensures var t := Tables(map[], [TagRow("p", "a"), TagRow("p", "b")]);
      var doc: Document := map["id" := StrV("p"), "tags" := ListV([StrV("a")])];
      Write(t, [doc], None).1.productTags == [TagRow("p", "a")]
  {
    var t := Tables(map[], [TagRow("p", "a"), TagRow("p", "b")]);
    var doc: Document := map["id" := StrV("p"), "tags" := ListV([StrV("a")])];
    var items := [doc];
    assert items[..0] == [];
    assert IdOf(doc) == "p";
    var rows := ProductRows(items);
    assert rows == [ProductRowOf(doc)];
    assert Writable(rows);
    assert IdSet(rows) == {"p"};
    assert DocTagRows(doc) == [TagRow("p", "a")];
    assert TagRows(items) == [TagRow("p", "a")];
    assert t.productTags[1..] == [TagRow("p", "b")];
    assert DeleteTagsFor(t.productTags, {"p"}) == [];
    assert Write(t, items, None).1 == Commit(t, items);
  }

  /**
   * Tags are replaced only when the batch has tag rows: a document that lost all
   * its tags keeps its old tag rows when no document of its batch has tags...
   */
  lemma UntaggedBatchKeepsTags()
    ensures var t := Tables(map[], [TagRow("p", "a")]);
      var p: Document := map["id" := StrV("p"), "tags" := ListV([])];
      Write(t, [p], None).1.productTags == [TagRow("p", "a")]
  {
    var p: Document := map["id" := StrV("p"), "tags" := ListV([])];
    assert [p][..0] == [];
    assert TagRows([p]) == [];
  }

  /** ...and loses them when another document of the same batch has tags. */
  lemma TaggedNeighbourClearsTags()
    ensures var t := Tables(map[], [TagRow("p", "a")]);
      var p: Document := map["id" := StrV("p"), "tags" := ListV([])];
      var q: Document := map["id" := StrV("q"), "tags" := ListV([StrV("x")])];
      Write(t, [p, q], None).1.productTags == [TagRow("q", "x")]
  {
    var p: Document := map["id" := StrV("p"), "tags" := ListV([])];
    var q: Document := map["id" := StrV("q"), "tags" := ListV([StrV("x")])];
    var items := [p, q];
    var t := Tables(map[], [TagRow("p", "a")]);
    NeighbourRows(p, q);
    NeighbourTags(p, q);
    WriteFailsAtomically(t, items, None);
    WriteCommits(t, items, None);
  }

  /** The two documents of the example give the products "p" and "q", a writable batch. */
  lemma NeighbourRows(p: Document, q: Document)
    requires p == map["id" := StrV("p"), "tags" := ListV([])]
    requires q == map["id" := StrV("q"), "tags" := ListV([StrV("x")])]
    ensures Writable(ProductRows([p, q]))
    ensures DeleteTagsFor([TagRow("p", "a")], IdSet(ProductRows([p, q]))) == []
  {
    var items := [p, q];
    var rows := ProductRows(items);
    assert IdOf(p) == "p" && IdOf(q) == "q";
    assert items[..1] == [p] && [p][..0] == [];
    assert rows == [ProductRowOf(p), ProductRowOf(q)];
    assert rows[0] in rows;
  }

  /** Of the example's two documents only the second has a tag. */
  lemma NeighbourTags(p: Document, q: Document)
    requires p == map["id" := StrV("p"), "tags" := ListV([])]
    requires q == map["id" := StrV("q"), "tags" := ListV([StrV("x")])]
    ensures TagRows([p, q]) == [TagRow("q", "x")]
  {
    var items := [p, q];
    assert items[..1] == [p] && [p][..0] == [];
    assert DocTagRows(p) == [];
    assert DocTagRows(q) == [TagRow("q", "x")];
    assert TagRows([p]) == TagRows([]) + DocTagRows(p) == [];
  }
}

=== FILE: documents.dfy ===
/**
 * Source documents as the Cosmos SDK hands them to Python: a JSON object
 * whose values are None, booleans, numbers, strings, lists or nested objects.
 * Also Python's `str()` and `float()` on those values, which the batch
 * writer uses to flatten a document.
 */
module Documents {
  import opened Wrappers
  import opened PyText

  datatype Value =
    | NullV                   // None
    | BoolV(b: bool)
    | IntV(i: int)
    | FloatV(f: real)
    | StrV(s: string)
    | ListV(elems: seq<Value>)
    | ObjV                    // a nested dict; its contents play no part in the model

  type Document = map<string, Value>

  /** `doc.get(key, default)`. */
  function Get(doc: Document, key: string, default: Value): Value {
    if key in doc then doc[key] else default
  }

  /** `str(v)`. Floats, lists and dicts are rendered as fixed placeholders. */
  function Str(v: Value): string {
    match v
    case NullV => "None"
    case BoolV(b) => if b then "True" else "False"
    case IntV(i) => IntToString(i)
    case StrV(s) => s
    case FloatV(_) => "<float>"
    case ListV(_) => "<list>"
    case ObjV => "<dict>"
  }

  /** The two exceptions `float()` can raise on a JSON value. */
  datatype ConversionError = TypeError | ValueError

  /**
   * `float(v)`: numbers and booleans convert exactly, strings are parsed, and
   * anything else is a TypeError. Only a string can raise ValueError.
   */
  function ToFloat(v: Value): (r: Result<real, ConversionError>)
    ensures r == Err(TypeError) <==> v.NullV? || v.ListV? || v.ObjV?
    ensures r == Err(ValueError) ==> v.StrV?
    ensures v.IntV? ==> r == Ok(v.i as real)
    ensures v.FloatV? ==> r == Ok(v.f)
    ensures v.BoolV? ==> r.Ok? && (r.value == 1.0 <==> v.b) && (r.value == 0.0 <==> !v.b)
  {
    match v
    case NullV => Err(TypeError)
    case BoolV(b) => Ok(if b then 1.0 else 0.0)
    case IntV(i) => Ok(i as real)
    case FloatV(f) => Ok(f)
    case StrV(s) =>
      (match ParseDecimal(s)
       case Some(r) => Ok(r)
       case None => Err(ValueError))
    case ListV(_) => Err(TypeError)
    case ObjV => Err(TypeError)
  }

  function Pow10(n: nat): (r: nat)
    ensures r > 0
  {
    if n == 0 then 1 else 10 * Pow10(n - 1)
  }

  /** An unsigned decimal: digits, optionally a point and more digits, at least one digit in all. */
  function ParseUnsigned(s: string): Option<real> {
    match Find(s, ".")
    case None =>
      if s != [] && AllDigits(s) then Some(DigitsValue(s) as real) else None
    case Some(k) =>
      var ip, fp := s[..k], s[k + 1..];
      if |ip| + |fp| > 0 && AllDigits(ip) && AllDigits(fp)
      then Some(DigitsValue(ip) as real + DigitsValue(fp) as real / Pow10(|fp|) as real)
      else None
  }

  /** The decimal literals `float(str)` accepts: an optional sign, then an unsigned decimal. */
  function ParseDecimal(s: string): Option<real> {
    if s != [] && (s[0] == '+' || s[0] == '-') then
      match ParseUnsigned(s[1..])
      case Some(r) => Some(if s[0] == '-' then -r else r)
      case None => None
    else
      ParseUnsigned(s)
  }

  lemma NoPointInDigits(s: string)
    requires AllDigits(s)
    ensures Find(s, ".").None?
  {
    forall k | 0 <= k <= |s| ensures !OccursAt(s, ".", k) {
      if k < |s| {
        assert s[k..k + 1][0] == s[k];
      }
    }
  }

  /** `float(str(i)) == i` for every integer `i`: the text `str()` gives an int parses back to it. */
  lemma IntTextRoundTrip(i: int)
    ensures ParseDecimal(IntToString(i)) == Some(i as real)
    ensures ToFloat(StrV(Str(IntV(i)))) == ToFloat(IntV(i))
  {
    var n: nat := if i < 0 then -i else i;
    var d := NatToString(n);
    NoPointInDigits(d);
    NatToStringRoundTrip(n);
    assert ParseUnsigned(d) == Some(n as real);
    if i < 0 {
      assert ("-" + d)[0] == '-' && ("-" + d)[1..] == d;
    } else {
      assert !IsDigit('+') && !IsDigit('-');
      assert d[0] != '+' && d[0] != '-';
    }
  }

  predicate NoDigit(s: string) {
    forall i :: 0 <= i < |s| ==> !IsDigit(s[i])
  }

  lemma NoDigitUnsigned(s: string)
    requires NoDigit(s)
    ensures ParseUnsigned(s).None?
  {
    match Find(s, ".")
    case None =>
      if s != [] {
        assert !IsDigit(s[0]);
      }
    case Some(k) =>
      var ip, fp := s[..k], s[k + 1..];
      if |ip| > 0 {
        assert ip[0] == s[0];
      } else if |fp| > 0 {
        assert fp[0] == s[k + 1];
      }
  }

  /** In this model, a string without a single ASCII digit is not a number: `float()` raises ValueError. */
  lemma NoDigitNotNumeric(s: string)
    requires NoDigit(s)
    ensures ToFloat(StrV(s)) == Err(ValueError)
  {
    NoDigitUnsigned(s);
    if s != [] && (s[0] == '+' || s[0] == '-') {
      NoDigitUnsigned(s[1..]);
    }
  }
}

=== FILE: even_odd.dfy ===
/** The even-number filter: keep the even inputs in order, then sort them in descending order. */
module EvenOdd {

  /**
   * `is_even(n)`: `n % 2 == 0`. Python's and Dafny's remainders agree for the
   * divisor 2, negatives included, so `n` is even exactly when it is twice
   * some integer.
   */
  predicate IsEven(n: int): (b: bool)
    ensures b <==> exists k :: n == 2 * k
  {
    if n % 2 == 0 then
      assert n == 2 * (n / 2);
      true
    else
      assert forall k :: n != 2 * k by {
        forall k ensures n != 2 * k {
          assert (2 * k) % 2 == 0;
        }
      }
      false
  }

  /** The even elements of `xs`, in input order, duplicates kept. */
  function Evens(xs: seq<int>): (r: seq<int>)
    decreases |xs|
  {
    if xs == [] then []
    else Evens(xs[..|xs| - 1]) + (if IsEven(xs[|xs| - 1]) then [xs[|xs| - 1]] else [])
  }

  predicate NonIncreasing(xs: seq<int>) {
    forall i, j :: 0 <= i < j < |xs| ==> xs[i] >= xs[j]
  }

  /** Places `x` in a non-increasing sequence. */
  function InsertDesc(x: int, xs: seq<int>): seq<int> {
    if xs == [] || x >= xs[0] then [x] + xs else [xs[0]] + InsertDesc(x, xs[1..])
  }

  /** `sorted(xs, reverse=True)`. */
  function SortDesc(xs: seq<int>): seq<int> {
    if xs == [] then [] else InsertDesc(xs[0], SortDesc(xs[1..]))
  }

  lemma {:induction false} InsertDescSpec(x: int, xs: seq<int>)
    requires NonIncreasing(xs)
    ensures NonIncreasing(InsertDesc(x, xs))
    ensures multiset(InsertDesc(x, xs)) == multiset(xs) + multiset{x}
  {
    InsertDescPerm(x, xs);
    InsertDescSorted(x, xs);
  }

  lemma {:induction false} InsertDescPerm(x: int, xs: seq<int>)
    ensures multiset(InsertDesc(x, xs)) == multiset(xs) + multiset{x}
  {
    if xs != [] && x < xs[0] {
      InsertDescPerm(x, xs[1..]);
      assert xs == [xs[0]] + xs[1..];
    }
  }

  /** Every element of the result is `x` or an element of `xs`. */
  lemma {:induction false} InsertDescElems(x: int, xs: seq<int>)
    ensures forall k :: 0 <= k < |InsertDesc(x, xs)| ==>
      InsertDesc(x, xs)[k] == x || InsertDesc(x, xs)[k] in xs
  {
    if xs != [] && x < xs[0] {
      InsertDescElems(x, xs[1..]);
      var ins := InsertDesc(x, xs[1..]);
      forall k | 0 <= k < |ins| ensures ins[k] == x || ins[k] in xs {
        if ins[k] != x {
          assert ins[k] in xs[1..];
        }
      }
    }
  }

  lemma {:induction false} InsertDescSorted(x: int, xs: seq<int>)
    requires NonIncreasing(xs)
    ensures NonIncreasing(InsertDesc(x, xs))
  {
    if xs != [] && x < xs[0] {
      var tail := xs[1..];
      InsertDescSorted(x, tail);
      InsertDescElems(x, tail);
      var ins := InsertDesc(x, tail);
      var r := [xs[0]] + ins;
      forall k | 0 <= k < |ins| ensures xs[0] >= ins[k] {
        if ins[k] != x {
          var m :| 0 <= m < |tail| && tail[m] == ins[k];
          assert xs[m + 1] == tail[m];
        }
      }
      forall i, j | 0 <= i < j < |r| ensures r[i] >= r[j] {
        assert r[j] == ins[j - 1];
        if i > 0 {
          assert r[i] == ins[i - 1];
        }
      }
    }
  }

  /** Sorting in descending order gives a non-increasing permutation of the input. */
  lemma {:induction false} SortDescSpec(xs: seq<int>)
    ensures NonIncreasing(SortDesc(xs))
    ensures multiset(SortDesc(xs)) == multiset(xs)
  {
    if xs != [] {
      SortDescSpec(xs[1..]);
      InsertDescSpec(xs[0], SortDesc(xs[1..]));
      assert xs == [xs[0]] + xs[1..];
    }
  }

  /** The script after reading its input: the loop that collects the even numbers into `even_list`, then the descending sort. */
  method EvenNumbers(n: seq<int>) returns (result: seq<int>)
    ensures result == SortDesc(Evens(n))
  {
    var evenList: seq<int> := [];
    for i := 0 to |n|
      invariant evenList == Evens(n[..i])
    {
      assert n[..i + 1][..i] == n[..i];
      if IsEven(n[i]) {
        evenList := evenList + [n[i]];
      }
    }
    assert n[..|n|] == n;
    result := SortDesc(evenList);
  }

  /**
   * Every even input occurs in the filtered list as often as in the input, and
   * no odd number occurs at all.
   */
  lemma {:induction false} EvensMultiplicity(xs: seq<int>)
    decreases |xs|
    ensures forall x :: IsEven(x) ==> multiset(Evens(xs))[x] == multiset(xs)[x]
    ensures forall x :: !IsEven(x) ==> multiset(Evens(xs))[x] == 0
  {
    if xs != [] {
      var init, last := xs[..|xs| - 1], xs[|xs| - 1];
      EvensMultiplicity(init);
      assert xs == init + [last];
    }
  }

  /**
   * The output is non-increasing, every element is even, and every even input
   * appears with its multiplicity: it is the even subsequence, sorted in
   * descending order.
   */
  lemma EvenNumbersSpec(n: seq<int>)
    ensures var r := SortDesc(Evens(n));
      && NonIncreasing(r)
      && (forall k :: 0 <= k < |r| ==> IsEven(r[k]))
      && multiset(r) == multiset(Evens(n))
      && (forall x :: IsEven(x) ==> multiset(r)[x] == multiset(n)[x])
  {
    var r := SortDesc(Evens(n));
    SortDescSpec(Evens(n));
    EvensMultiplicity(n);
    forall k | 0 <= k < |r| ensures IsEven(r[k]) {
      assert r[k] in multiset(r);
    }
  }
}

=== FILE: img_upload.dfy ===
/**
 * The image-upload HTTP endpoint. It decides whether a request is accepted:
 * the image-extension check, the filename taken from a part's
 * Content-Disposition header, the 200/400/500 responses, and the resize
 * message queued for an accepted file.
 *
 * The blob and queue clients are not modelled. Their outcomes come in as
 * parameters: a failure to connect, and the blob URL an upload yields or the
 * error it raises. The multipart body's decoding also comes in as a parameter:
 * the decoded parts, or the error the decoder raises.
 */
module ImgUpload {
  import opened Wrappers
  import opened PyText

  /** `ALLOWED`. */
  const Allowed: set<string> := {".png", ".jpg", ".jpeg"}

  /** The widths the resizer is asked for. */
  const ResizeSizes: seq<nat> := [320, 1024]

  /** Some character of `p[from..to]` is not a dot. */
  predicate HasNonDot(p: string, from: nat, to: nat)
    requires from <= to <= |p|
  {
    exists i :: from <= i < to && p[i] != '.'
  }

  /** Where the last path component of `p` starts: just after its last slash. */
  function ComponentStart(p: string): (b: nat)
    ensures b <= |p| && (b == 0 || p[b - 1] == '/')
    ensures forall i :: b <= i < |p| ==> p[i] != '/'
  {
    match RFind(p, '/')
    case None => 0
    case Some(k) => k + 1
  }

  /**
   * `os.path.splitext(p)[1]` on POSIX paths. The extension starts at the last
   * dot after the last slash. It is empty when there is no such dot, or when
   * only dots precede it in the last path component (".png" has no extension).
   */
  function SplitExt(p: string): (e: string)
    ensures e == [] || (
      && e[0] == '.' && |e| <= |p| && e == p[|p| - |e|..]
      && (forall i :: 1 <= i < |e| ==> e[i] != '.')
      && '/' !in e)
    ensures RFind(p, '.').None? ==> e == []
    ensures e != [] ==> |e| < |p| && RFind(p, '.') == Some(|p| - |e|)
    ensures e != [] <==>
      && RFind(p, '.').Some?
      && ComponentStart(p) <= RFind(p, '.').value
      && HasNonDot(p, ComponentStart(p), RFind(p, '.').value)
  {
    match RFind(p, '.')
    case None => []
    case Some(dot) =>
      var base := ComponentStart(p);
      if base <= dot && HasNonDot(p, base, dot) then p[dot..] else []
  }

  /** `s` ends with `suffix`, ignoring ASCII case, after at least one other character. */
  predicate EndsWithFolded(s: string, suffix: string) {
    |suffix| < |s| && Lower(s[|s| - |suffix|..]) == suffix
  }

  /**
   * `is_image(filename)`: the lower-cased final extension is one of the allowed
   * ones. An accepted name ends with `.png`, `.jpg` or `.jpeg` in some case.
   */
  function IsImage(filename: string): (b: bool)
    ensures b ==>
      EndsWithFolded(filename, ".png") || EndsWithFolded(filename, ".jpg") || EndsWithFolded(filename, ".jpeg")
  {
    var e := SplitExt(filename);
    assert e != [] ==> filename[|filename| - |e|..] == e;
    Lower(e) in Allowed
  }

  /**
   * Only the last extension counts. For a name with no slash, that does not
   * start with a dot, followed by a single extension, that extension is what
   * `splitext` returns and what the check looks at.
   */
  lemma ExtensionOf(stem: string, ext: string)
    requires stem != [] && stem[0] != '.' && '/' !in stem
    requires ext != [] && ext[0] == '.' && '/' !in ext
    requires forall i :: 1 <= i < |ext| ==> ext[i] != '.'
    ensures SplitExt(stem + ext) == ext
    ensures IsImage(stem + ext) <==> Lower(ext) in Allowed
  {
    var p := stem + ext;
    var dot := |stem|;
    assert p[dot] == '.';
    assert RFind(p, '.') == Some(dot) by {
      var r := RFind(p, '.');
      assert r.Some? && r.value >= dot by {
        assert p[dot] == '.';
      }
      forall j | dot < j < |p| ensures p[j] != '.' {
        assert p[j] == ext[j - dot];
      }
    }
    assert RFind(p, '/').None? by {
      forall i | 0 <= i < |p| ensures p[i] != '/' {
        if i < |stem| {
          assert p[i] == stem[i];
        } else {
          assert p[i] == ext[i - |stem|];
        }
      }
    }
    assert p[0] == stem[0];
    assert HasNonDot(p, 0, dot);
    assert p[dot..] == ext;
  }

  lemma {:induction false} RFindLower(s: string, c: char)
    requires !('A' <= c <= 'Z') && !('a' <= c <= 'z')
    ensures RFind(Lower(s), c) == RFind(s, c)
  {
    if s != [] {
      var init := s[..|s| - 1];
      assert Lower(s)[..|s| - 1] == Lower(init);
      assert Lower(s)[|s| - 1] == LowerChar(s[|s| - 1]);
      RFindLower(init, c);
    }
  }

  /** `splitext` commutes with ASCII lower-casing. */
  lemma SplitExtLower(p: string)
    ensures SplitExt(Lower(p)) == Lower(SplitExt(p))
  {
    RFindLower(p, '.');
    RFindLower(p, '/');
    var q := Lower(p);
    match RFind(p, '.')
    case None =>
    case Some(dot) =>
      var base := ComponentStart(p);
      assert base == ComponentStart(q);
      if base <= dot {
        assert HasNonDot(q, base, dot) == HasNonDot(p, base, dot) by {
          if HasNonDot(p, base, dot) {
            var i :| base <= i < dot && p[i] != '.';
            assert q[i] != '.';
          }
          if HasNonDot(q, base, dot) {
            var i :| base <= i < dot && q[i] != '.';
            assert p[i] != '.';
          }
        }
        assert q[dot..] == Lower(p[dot..]);
      }
  }

  /** The check is case-insensitive: a name and its lower-cased form are judged alike. */
  lemma CaseInsensitive(filename: string)
    ensures IsImage(Lower(filename)) <==> IsImage(filename)
  {
    var e := SplitExt(filename);
    SplitExtLower(filename);
    LowerTwice(e);
  }

  /** The check is case-insensitive: `A.PNG` is accepted. */
  lemma UpperCaseAccepted()
    ensures IsImage("A.PNG")
  {
    ExtensionOf("A", ".PNG");
    assert "A" + ".PNG" == "A.PNG";
    assert Lower(".PNG") == ".png";
  }

  /** Only the last extension counts: `x.png.exe` is rejected. */
  lemma LastExtensionRejected()
    ensures !IsImage("x.png.exe")
  {
    ExtensionOf("x.png", ".exe");
    assert "x.png" + ".exe" == "x.png.exe";
    assert Lower(".exe") == ".exe";
  }

  /** A name that is only a dot-extension, such as `.png`, has no extension for `splitext` and is rejected. */
  lemma DotFileRejected()
    ensures !IsImage(".png")
  {
    assert RFind(".png", '.') == Some(0);
    assert SplitExt(".png") == [];
    assert Lower([]) == [];
  }

  // ---------------------------------------------------------------- the multipart form

  /** A part of the form: its Content-Disposition header (empty when absent) and its content. */
  datatype Part = Part(disposition: string, content: seq<bv8>)

  /** The first part, at or after `from`, whose Content-Disposition mentions `filename=`. */
  function FirstFilePart(parts: seq<Part>, from: nat): (r: Option<nat>)
    requires from <= |parts|
    decreases |parts| - from
    ensures r.Some? ==> from <= r.value < |parts| && Contains(parts[r.value].disposition, "filename=")
    ensures forall j :: from <= j < |parts| && (r.None? || j < r.value) ==>
      !Contains(parts[j].disposition, "filename=")
  {
    if from == |parts| then None
    else if Contains(parts[from].disposition, "filename=") then Some(from)
    else FirstFilePart(parts, from + 1)
  }

  /**
   * The filename: the text after the first `filename=` without its surrounding
   * whitespace, with every `"` removed. Text without surrounding whitespace or
   * quotes is the name itself.
   */
  function FilenameOf(disposition: string): (name: string)
    requires Contains(disposition, "filename=")
    ensures '"' !in name
    ensures forall c :: c in name ==> c in SplitSecond(disposition, "filename=")
    ensures forall c :: c in name ==> c in disposition
    ensures var v := SplitSecond(disposition, "filename=");
      (v == [] || (!IsSpace(v[0]) && !IsSpace(v[|v| - 1]))) && '"' !in v ==> name == v
  {
    var v := SplitSecond(disposition, "filename=");
    if (v == [] || (!IsSpace(v[0]) && !IsSpace(v[|v| - 1]))) && '"' !in v then
      StripNoSpace(v);
      RemoveAllAbsent(v, '"');
      RemoveAll(Strip(v), '"')
    else
      RemoveAll(Strip(v), '"')
  }

  /**
   * What `FilenameOf` keeps: the part of the text after `filename=` that lies
   * between its surrounding whitespace, with every `"` taken out and the other
   * characters kept in order.
   */
  lemma FilenameOfSpan(disposition: string)
    requires Contains(disposition, "filename=")
    ensures var v := SplitSecond(disposition, "filename=");
      exists i, j :: StrippedAt(v, i, j) && FilenameOf(disposition) == RemoveAll(v[i..j], '"')
  {
    var v := SplitSecond(disposition, "filename=");
    var s := Strip(v);
    var i, j :| StrippedAt(v, i, j) && s == v[i..j];
    assert FilenameOf(disposition) == RemoveAll(v[i..j], '"');
  }

  /**
   * The file the form carries: the first part naming one, as its filename and
   * content. There is none exactly when no part names a file.
   */
  function FindFile(parts: seq<Part>): (f: Option<(string, seq<bv8>)>)
    ensures f.None? <==> forall j :: 0 <= j < |parts| ==> !Contains(parts[j].disposition, "filename=")
    ensures f.Some? ==> '"' !in f.value.0
  {
    match FirstFilePart(parts, 0)
    case None => None
    case Some(i) => Some((FilenameOf(parts[i].disposition), parts[i].content))
  }

  /** Later parts are ignored once a part names a file. */
  lemma FirstFileWins(p: Part, rest: seq<Part>, other: seq<Part>)
    requires Contains(p.disposition, "filename=")
    ensures FindFile([p] + rest) == FindFile([p] + other) == Some((FilenameOf(p.disposition), p.content))
  {
    assert ([p] + rest)[0] == p;
    assert ([p] + other)[0] == p;
  }

  /** Parts that name no file before the first one that does are skipped. */
  lemma SkipsUnnamedParts(before: seq<Part>, p: Part, rest: seq<Part>)
    requires forall j :: 0 <= j < |before| ==> !Contains(before[j].disposition, "filename=")
    requires Contains(p.disposition, "filename=")
    ensures FindFile(before + [p] + rest) == Some((FilenameOf(p.disposition), p.content))
  {
    var parts := before + [p] + rest;
    var r := FirstFilePart(parts, 0);
    assert parts[|before|] == p;
    forall j | 0 <= j < |before| ensures !Contains(parts[j].disposition, "filename=") {
      assert parts[j] == before[j];
    }
    assert r.Some? && r.value == |before|;
  }

  // ---------------------------------------------------------------- the request

  datatype Request = Request(contentType: string, parts: Result<seq<Part>, string>)

  datatype Response = Response(status: nat, body: string)

  /** The queue message `{blobUrl, sizes}`. */
  datatype ResizeMessage = ResizeMessage(blobUrl: string, sizes: seq<nat>)

  /**
   * `main(req)`: the response, and the resize message queued when the file is
   * accepted. `connectFault` is a failure to reach the storage account.
   * `upload` is what uploading the blob and queueing the message yield: the
   * blob's URL, or the error raised.
   */
  function Handle(req: Request, connectFault: Option<string>, upload: Result<string, string>)
    : (r: (Response, Option<ResizeMessage>))
    ensures r.0.status in {200, 400, 500}
    ensures r.1.Some? <==> r.0.status == 200
    ensures r.1.Some? ==> upload.Ok? && r.1.value == ResizeMessage(upload.value, ResizeSizes)
    ensures connectFault.Some? ==> r == (Response(500, "Error: " + connectFault.value), None)
    ensures r.0.status == 200 ==> Contains(req.contentType, "multipart/form-data") && req.parts.Ok?
  {
    if connectFault.Some? then (Response(500, "Error: " + connectFault.value), None)
    else if !Contains(req.contentType, "multipart/form-data") then
      (Response(400, "Expected multipart/form-data"), None)
    else if req.parts.Err? then (Response(500, "Error: " + req.parts.error), None)
    else HandleForm(req.parts.value, upload)
  }

  /**
   * The branch of `main` for a decoded multipart form: find the file, check it,
   * upload it and queue the resize message. Only an accepted file (200) yields
   * a message, and it names the uploaded blob's URL.
   */
  function HandleForm(parts: seq<Part>, upload: Result<string, string>): (r: (Response, Option<ResizeMessage>))
    ensures r.0.status in {200, 400, 500}
    ensures r.1.Some? <==> r.0.status == 200
    ensures r.1.Some? ==> upload.Ok? && r.1.value == ResizeMessage(upload.value, ResizeSizes)
    ensures r.0.status == 500 ==> upload.Err? && r.0.body == "Error: " + upload.error
  {
    match FindFile(parts)
    case None => (Response(400, "No file found"), None)
    case Some((filename, data)) =>
      if filename == [] || data == [] then (Response(400, "No file found"), None)
      else if !IsImage(filename) then (Response(400, "Only images allowed"), None)
      else match upload
        case Err(e) => (Response(500, "Error: " + e), None)
        case Ok(url) =>
          (Response(200, "Uploaded " + filename + "\nQueue added"), Some(ResizeMessage(url, ResizeSizes)))
  }

  /** The form carries a file to upload: a non-empty image name with non-empty content. */
  predicate FormUploadable(parts: seq<Part>) {
    var f := FindFile(parts);
    f.Some? && f.value.0 != [] && f.value.1 != [] && IsImage(f.value.0)
  }

  /** A multipart request whose form carries a file to upload. */
  predicate Uploadable(req: Request) {
    Contains(req.contentType, "multipart/form-data") && req.parts.Ok? && FormUploadable(req.parts.value)
  }

  /**
   * A form is refused (400) exactly when it carries no uploadable file. It is
   * accepted (200), with a resize message, exactly when it does and the upload
   * succeeds. Otherwise the upload's error gives a 500.
   */
  lemma FormOutcomes(parts: seq<Part>, upload: Result<string, string>)
    ensures var (resp, msg) := HandleForm(parts, upload);
      && (resp.status == 400 <==> !FormUploadable(parts))
      && (resp.status == 200 <==> FormUploadable(parts) && upload.Ok?)
      && (resp.status == 500 <==> FormUploadable(parts) && upload.Err?)
      && (msg.Some? <==> resp.status == 200)
      && (msg.Some? ==> msg.value == ResizeMessage(upload.value, ResizeSizes))
  {
  }

  /**
   * The outcomes. A request is accepted (200) exactly when storage is reachable,
   * the file is uploadable and the upload succeeds; only then is a message
   * queued, and it names the blob URL and the sizes 320 and 1024. A request is
   * rejected (400) exactly when storage is reachable and the request is not
   * multipart, or decodes to no non-empty file, or names a non-image. Every
   * other outcome is a 500.
   */
  lemma HandleOutcomes(req: Request, connectFault: Option<string>, upload: Result<string, string>)
    ensures var (resp, msg) := Handle(req, connectFault, upload);
      && resp.status in {200, 400, 500}
      && (resp.status == 200 <==> connectFault.None? && Uploadable(req) && upload.Ok?)
      && (msg.Some? <==> resp.status == 200)
      && (msg.Some? ==> msg.value == ResizeMessage(upload.value, [320, 1024]))
      && (resp.status == 400 <==>
            connectFault.None?
            && (!Contains(req.contentType, "multipart/form-data")
                || (req.parts.Ok? && !Uploadable(req))))
  {
    if connectFault.None? && Contains(req.contentType, "multipart/form-data") && req.parts.Ok? {
      FormOutcomes(req.parts.value, upload);
    }
  }

  /** Only images are ever uploaded: whatever the rest of the request, a non-image file is refused with 400. */
  lemma NonImageRejected(req: Request, upload: Result<string, string>)
    requires Contains(req.contentType, "multipart/form-data") && req.parts.Ok?
    requires var f := FindFile(req.parts.value);
      f.Some? && f.value.0 != [] && f.value.1 != [] && !IsImage(f.value.0)
    ensures Handle(req, None, upload) == (Response(400, "Only images allowed"), None)
  {
    assert HandleForm(req.parts.value, upload) == (Response(400, "Only images allowed"), None);
  }

  /**
   * A quoted filename comes out unquoted: for `filename="n"` where `n` is
   * non-empty, has no whitespace or quote, and does not itself contain
   * `filename=`, the extracted name is `n`.
   */
  lemma QuotedFilename(name: string)
    requires IsToken(name) && '"' !in name && !Contains(name, "filename=")
    ensures Contains("filename=\"" + name + "\"", "filename=")
    ensures FilenameOf("filename=\"" + name + "\"") == name
  {
    var key := "filename=";
    var quoted := "\"" + name + "\"";
    var d := key + quoted;
    assert d == "filename=\"" + name + "\"";
    assert d[..9] == key;
    assert OccursAt(d, key, 0);
    assert d[9..] == quoted;
    QuotedHasNoKey(name);
    assert SplitSecond(d, key) == quoted;
    assert quoted[0] == '"' && quoted[|quoted| - 1] == '"';
    StripNoSpace(quoted);
    QuotesRemoved(name);
  }

  lemma QuotedHasNoKey(name: string)
    requires '"' !in name && !Contains(name, "filename=")
    ensures Find("\"" + name + "\"", "filename=").None?
  {
    var key := "filename=";
    var quoted := "\"" + name + "\"";
    forall j | 0 <= j <= |quoted| ensures !OccursAt(quoted, key, j) {
      if OccursAt(quoted, key, j) {
        assert quoted[j] == key[0];
        assert quoted[j + 8] == key[8];
        assert 1 <= j && j + 9 <= |quoted| - 1;
        assert quoted[j..j + 9] == name[j - 1..j + 8];
        assert OccursAt(name, key, j - 1);
        assert false;
      }
    }
  }

  lemma QuotesRemoved(name: string)
    requires '"' !in name
    ensures RemoveAll("\"" + name + "\"", '"') == name
  {
    RemoveAllAppend("\"" + name, "\"", '"');
    RemoveAllAppend("\"", name, '"');
    RemoveAllAbsent(name, '"');
  }

  /**
   * A multipart request whose only part is `filename="n"`, with content, where
   * `n` names an image, is accepted: 200, and a resize message for the blob.
   */
  lemma AcceptQuoted(contentType: string, name: string, data: seq<bv8>, url: string)
    requires Contains(contentType, "multipart/form-data")
    requires IsToken(name) && '"' !in name && !Contains(name, "filename=") && IsImage(name)
    requires data != []
    ensures Handle(Request(contentType, Ok([Part("filename=\"" + name + "\"", data)])), None, Ok(url))
      == (Response(200, "Uploaded " + name + "\nQueue added"), Some(ResizeMessage(url, [320, 1024])))
  {
    var p := Part("filename=\"" + name + "\"", data);
    QuotedFilename(name);
    assert FirstFilePart([p], 0) == Some(0);
    assert FindFile([p]) == Some((name, data));
    assert HandleForm([p], Ok(url))
      == (Response(200, "Uploaded " + name + "\nQueue added"), Some(ResizeMessage(url, ResizeSizes)));
  }
}

=== FILE: orchestrator.dfy ===
/**
 * The migration orchestrator. One invocation reads one page, writes it, counts
 * it, and either continues as new with the updated state or completes with the
 * final report.
 *
 * The durable runtime is not modelled. Instead, `Step` is one invocation, and
 * `Run` is the chain of invocations that `continue_as_new` produces. The clock
 * comes in as parameters: `now` is the reading at a start and `later` the
 * reading at completion. Failures the environment raises come in as
 * `faults`, keyed by the page's position in the container: a read that raises
 * fails the whole orchestration, while a write that raises is caught and
 * counted.
 */
module Orchestrator {
  import opened Wrappers
  import opened Documents
  import opened BatchReader
  import opened BatchWriter

  /** An entry of `batch_reports`: the writer's report, or the failure record built from the exception. */
  datatype BatchReport = Succeeded(report: WriteReport) | Failed(error: string, batchCount: nat)

  /**
   * The state passed through `continue_as_new`. A `startTime` of 0.0 is Python's
   * falsy start time, which is treated as missing.
   */
  datatype JobState = JobState(
    token: Option<Token>,
    totalMigrated: nat,
    failures: nat,
    startTime: real,
    reports: seq<Option<BatchReport>>)

  /** The final report. */
  datatype MigrationResult = MigrationResult(
    totalRecords: nat,
    failures: nat,
    durationSeconds: real,
    reports: seq<Option<BatchReport>>)

  datatype StepOutcome = ContinueAsNew(state: JobState) | Completed(result: MigrationResult)

  /**
   * The state an invocation starts from. A missing input is `{}`, and every
   * field then takes its default. A missing or zero start time is replaced by
   * the clock.
   */
  function Resume(input: Option<JobState>, now: real): (s: JobState)
    ensures input.None? ==> s == JobState(None, 0, 0, now, [])
    ensures input.Some? ==> s == input.value.(startTime := s.startTime)
    ensures s.startTime == (if input.Some? && input.value.startTime != 0.0 then input.value.startTime else now)
  {
    var s := if input.Some? then input.value else JobState(None, 0, 0, 0.0, []);
    if s.startTime == 0.0 then s.(startTime := now) else s
  }

  /**
   * A failure the environment raises at the page read from one position: the
   * Cosmos query raises, or the SQL write raises with the given message.
   */
  datatype Fault = ReadFails(error: string) | WriteFails(error: string)

  /** The error the read of the page at `token` raises, if any. */
  function ReadFaultAt(faults: map<Token, Fault>, token: Option<Token>): Option<string> {
    if Offset(token) in faults && faults[Offset(token)].ReadFails? then Some(faults[Offset(token)].error) else None
  }

  /** The error injected into the write of the page read at `token`, if any. */
  function WriteFaultAt(faults: map<Token, Fault>, token: Option<Token>): Option<string> {
    if Offset(token) in faults && faults[Offset(token)].WriteFails? then Some(faults[Offset(token)].error) else None
  }

  /**
   * Counts one page into the state. An empty page adds a `None` report. A
   * written page adds its count to the migrated total. A failed page adds its
   * count to the failures and a failure record. Either way exactly one report
   * is appended, and the count lands in exactly one of the two counters.
   */
  function Record(s: JobState, count: nat, written: Result<WriteReport, string>): (s': JobState)
    ensures s'.token == s.token && s'.startTime == s.startTime
    ensures |s'.reports| == |s.reports| + 1 && s'.reports[..|s.reports|] == s.reports
    ensures s'.totalMigrated + s'.failures == s.totalMigrated + s.failures + count
    ensures s'.totalMigrated >= s.totalMigrated && s'.failures >= s.failures
    ensures count == 0 ==> s'.reports[|s.reports|] == None
    ensures written.Ok? ==> s'.failures == s.failures
    ensures count > 0 && written.Ok? ==> s'.reports[|s.reports|] == Some(Succeeded(written.value))
    ensures count > 0 && written.Err? ==>
      s'.totalMigrated == s.totalMigrated && s'.reports[|s.reports|] == Some(Failed(written.error, count))
  {
    var migrated := if count > 0 && written.Ok? then count else 0;
    var failed := if count > 0 && written.Err? then count else 0;
    var report :=
      if count == 0 then None
      else if written.Ok? then Some(Succeeded(written.value))
      else Some(Failed(written.error, count));
    assert (s.reports + [report])[..|s.reports|] == s.reports;
    s.(totalMigrated := s.totalMigrated + migrated, failures := s.failures + failed, reports := s.reports + [report])
  }

  /**
   * One invocation: what it returns or continues with, and the tables after it.
   * A read that raises fails the whole orchestration: the error propagates out
   * of the invocation, nothing is counted or continued, and no table changes.
   */
  function StepSpec(
    source: seq<Document>, input: Option<JobState>, t: Tables,
    faults: map<Token, Fault>, now: real, later: real): (r: (Result<StepOutcome, string>, Tables))
    ensures r.0.Err? <==> ReadFaultAt(faults, Resume(input, now).token).Some?
    ensures r.0.Err? ==> r.0.error == ReadFaultAt(faults, Resume(input, now).token).value && r.1 == t
    ensures r.0.Ok? ==> (r.0.value.ContinueAsNew? <==> ReadPage(source, Resume(input, now).token).nextToken.Some?)
    ensures r.0.Ok? && r.0.value.ContinueAsNew? ==>
      r.0.value.state.token == ReadPage(source, Resume(input, now).token).nextToken
    ensures r.1 != t ==> ReadPage(source, Resume(input, now).token).count > 0
  {
    var s := Resume(input, now);
    match ReadFaultAt(faults, s.token)
    case Some(e) => (Err(e), t)
    case None =>
      var page := ReadPage(source, s.token);
      var w := WritePage(t, page, WriteFaultAt(faults, s.token));
      (Ok(Finish(Record(s, page.count, w.0), page.nextToken, later)), w.1)
  }

  /**
   * The end of `orchestrator_function`: continue with the next token, carrying
   * the counts, reports and start time, or complete with the duration since the
   * start.
   */
  function Finish(s: JobState, next: Option<Token>, later: real): (out: StepOutcome)
    ensures out.ContinueAsNew? <==> next.Some?
    ensures TotalOf(out) == s.totalMigrated && FailuresOf(out) == s.failures && ReportsOf(out) == s.reports
    ensures out.ContinueAsNew? ==> out.state.token == next && out.state.startTime == s.startTime
    ensures out.Completed? ==> out.result.durationSeconds == later - s.startTime
  {
    if next.Some? then ContinueAsNew(s.(token := next))
    else Completed(MigrationResult(s.totalMigrated, s.failures, later - s.startTime, s.reports))
  }

  function TotalOf(out: StepOutcome): nat {
    match out
    case ContinueAsNew(s) => s.totalMigrated
    case Completed(r) => r.totalRecords
  }

  function FailuresOf(out: StepOutcome): nat {
    match out
    case ContinueAsNew(s) => s.failures
    case Completed(r) => r.failures
  }

  function ReportsOf(out: StepOutcome): seq<Option<BatchReport>> {
    match out
    case ContinueAsNew(s) => s.reports
    case Completed(r) => r.reports
  }

  /** The start of `orchestrator_function`: the input's fields, or their defaults, and the start time. */
  method ResumeState(input: Option<JobState>, now: real) returns (state: JobState)
    ensures state == Resume(input, now)
  {
    var data := if input.Some? then input.value else JobState(None, 0, 0, 0.0, []);
    var startTime := data.startTime;
    if startTime == 0.0 {
      startTime := now;
    }
    state := data.(startTime := startTime);
  }

  /** `orchestrator_function` against a database: one read, at most one write, then the outcome. */
  method Step(
    source: seq<Document>, input: Option<JobState>, db: SqlDatabase,
    faults: map<Token, Fault>, now: real, later: real) returns (out: Result<StepOutcome, string>)
    modifies db
    ensures (out, db.Snapshot()) == StepSpec(source, input, old(db.Snapshot()), faults, now, later)
  {
    var state := ResumeState(input, now);
    ghost var t, s := db.Snapshot(), state;

    var readError := ReadFaultAt(faults, state.token);
    if readError.Some? {
      return Err(readError.value);
    }
    var page := ReadPage(source, state.token);
    state := WriteAndCount(db, page, WriteFaultAt(faults, state.token), state);

    var outcome;
    if page.nextToken.Some? {
      outcome := ContinueAsNew(state.(token := page.nextToken));
    } else {
      outcome := Completed(MigrationResult(state.totalMigrated, state.failures, later - state.startTime, state.reports));
    }
    assert outcome == Finish(state, page.nextToken, later);
    out := Ok(outcome);
    StepOf(source, input, t, faults, now, later, s, page, state, db.Snapshot(), outcome);
  }

  /** The invocation assembled from its parts: resume, read, write and count, finish. */
  lemma StepOf(
    source: seq<Document>, input: Option<JobState>, t: Tables,
    faults: map<Token, Fault>, now: real, later: real,
    s: JobState, page: Page, s': JobState, t': Tables, out: StepOutcome)
    requires s == Resume(input, now) && ReadFaultAt(faults, s.token).None?
    requires page == ReadPage(source, s.token)
    requires var w := WritePage(t, page, WriteFaultAt(faults, s.token));
      s' == Record(s, page.count, w.0) && t' == w.1
    requires out == Finish(s', page.nextToken, later)
    ensures (Ok(out), t') == StepSpec(source, input, t, faults, now, later)
  {
  }

  /**
   * The outcome of writing a page, or the empty page's `Ok` that never reaches
   * the writer. A failed write changes no table; a non-empty page is written
   * exactly when the store does not fail and its rows are writable.
   */
  function WritePage(t: Tables, page: Page, fault: Option<string>): (w: (Result<WriteReport, string>, Tables))
    ensures page.count == 0 ==> w == (Ok(NoItems), t)
    ensures w.0.Err? ==> w.1 == t
    ensures page.count > 0 && page.items != [] ==> (w.0.Ok? <==> fault.None? && Writable(ProductRows(page.items)))
  {
    if page.count == 0 then (Ok(NoItems), t)
    else if page.items == [] then
      WriteEmptyBatch(t, fault);
      Write(t, page.items, fault)
    else
      WriteFailsAtomically(t, page.items, fault);
      Write(t, page.items, fault)
  }

  /** The middle of `orchestrator_function`: write a non-empty page, count it as migrated or failed, append its report. */
  method WriteAndCount(db: SqlDatabase, page: Page, fault: Option<string>, s: JobState) returns (s': JobState)
    modifies db
    ensures var w := WritePage(old(db.Snapshot()), page, fault);
      s' == Record(s, page.count, w.0) && db.Snapshot() == w.1
  {
    ghost var written := WritePage(db.Snapshot(), page, fault).0;
    var totalMigrated := s.totalMigrated;
    var failures := s.failures;
    var batchReport: Option<BatchReport> := None;
    if page.count > 0 {
      var r := db.WriteBatch(page.items, fault);
      assert r == written;
      match r {
        case Ok(rep) =>
          batchReport := Some(Succeeded(rep));
          totalMigrated := totalMigrated + page.count;
        case Err(e) =>
          failures := failures + page.count;
          batchReport := Some(Failed(e, page.count));
      }
    }
    s' := s.(totalMigrated := totalMigrated, failures := failures, reports := s.reports + [batchReport]);
    RecordFields(s, page.count, written);
  }

  /** `Record` field by field: the counter the page lands in, and the report appended. */
  lemma RecordFields(s: JobState, count: nat, written: Result<WriteReport, string>)
    ensures var s' := Record(s, count, written);
      && s'.token == s.token && s'.startTime == s.startTime
      && s'.totalMigrated == s.totalMigrated + (if count > 0 && written.Ok? then count else 0)
      && s'.failures == s.failures + (if count > 0 && written.Err? then count else 0)
      && s'.reports == s.reports + [if count == 0 then None
                                   else if written.Ok? then Some(Succeeded(written.value))
                                   else Some(Failed(written.error, count))]
  {
  }

  // ---------------------------------------------------------------- one step

  /**
   * Every invocation that reads its page appends exactly one report and leaves
   * the earlier ones in place. It adds the page's count to exactly one of the
   * two counters, and never decreases either. It continues exactly when the
   * reader returned a next token.
   */
  lemma StepAccounting(
    source: seq<Document>, input: Option<JobState>, t: Tables,
    faults: map<Token, Fault>, now: real, later: real)
    ensures var s := Resume(input, now);
      var page := ReadPage(source, s.token);
      var r := StepSpec(source, input, t, faults, now, later).0;
      r.Ok? ==>
      && |ReportsOf(r.value)| == |s.reports| + 1
      && ReportsOf(r.value)[..|s.reports|] == s.reports
      && TotalOf(r.value) + FailuresOf(r.value) == s.totalMigrated + s.failures + page.count
      && TotalOf(r.value) >= s.totalMigrated && FailuresOf(r.value) >= s.failures
      && (r.value.ContinueAsNew? <==> page.nextToken.Some?)
      && (r.value.ContinueAsNew? ==> r.value.state.token == page.nextToken && r.value.state.startTime == s.startTime)
      && (r.value.Completed? ==> r.value.result.durationSeconds == later - s.startTime)
  {
    var s := Resume(input, now);
    var page := ReadPage(source, s.token);
    if ReadFaultAt(faults, s.token).None? {
      var w := WritePage(t, page, WriteFaultAt(faults, s.token));
      var s' := Record(s, page.count, w.0);
      assert StepSpec(source, input, t, faults, now, later).0 == Ok(Finish(s', page.nextToken, later));
    }
  }

  /**
   * An empty page writes nothing and counts nothing, and its report is `None`.
   * Under this model's paging an empty page is the last, so the run completes.
   */
  lemma StepEmptyPage(
    source: seq<Document>, input: Option<JobState>, t: Tables,
    faults: map<Token, Fault>, now: real, later: real)
    requires ReadPage(source, Resume(input, now).token).count == 0
    ensures var s := Resume(input, now);
      var (r, t') := StepSpec(source, input, t, faults, now, later);
      && t' == t
      && (r.Ok? ==>
            TotalOf(r.value) == s.totalMigrated && FailuresOf(r.value) == s.failures
            && ReportsOf(r.value) == s.reports + [None]
            && r.value.Completed?)
  {
  }

  /**
   * A non-empty page is written. It counts as migrated, with the writer's report,
   * when the write succeeds. It counts as failed, with the exception's message,
   * when the writer raises: an injected fault, or a batch the statements refuse
   * (too many rows for the parameter limit, a list or dict value, a repeated id).
   * A failed page leaves the tables as they were.
   */
  lemma StepWritesPage(
    source: seq<Document>, input: Option<JobState>, t: Tables,
    faults: map<Token, Fault>, now: real, later: real)
    requires ReadPage(source, Resume(input, now).token).count > 0
    ensures var s := Resume(input, now);
      var page := ReadPage(source, s.token);
      var fault := WriteFaultAt(faults, s.token);
      var (written, tw) := Write(t, page.items, fault);
      var (r, t') := StepSpec(source, input, t, faults, now, later);
      && (written.Ok? <==> fault.None? && Writable(ProductRows(page.items)))
      && (r.Ok? ==> t' == tw)
      && (r.Ok? && written.Ok? ==>
            TotalOf(r.value) == s.totalMigrated + page.count && FailuresOf(r.value) == s.failures
            && ReportsOf(r.value) == s.reports + [Some(Succeeded(written.value))])
      && (r.Ok? && written.Err? ==>
            t' == t
            && TotalOf(r.value) == s.totalMigrated && FailuresOf(r.value) == s.failures + page.count
            && ReportsOf(r.value) == s.reports + [Some(Failed(written.error, page.count))])
  {
    var s := Resume(input, now);
    var page := ReadPage(source, s.token);
    WriteFailsAtomically(t, page.items, WriteFaultAt(faults, s.token));
    StepAccounting(source, input, t, faults, now, later);
  }

  /**
   * A page of more than 525 documents whose names and categories can be bound
   * is always counted as failed, whatever the store does: the MERGE would bind
   * more than 2100 parameters. Nothing is written and the failure record
   * carries the store's error when there is one.
   */
  lemma OversizedPageFails(
    source: seq<Document>, input: Option<JobState>, t: Tables,
    faults: map<Token, Fault>, now: real, later: real)
    requires ReadFaultAt(faults, Resume(input, now).token).None?
    requires ReadPage(source, Resume(input, now).token).count > MaxMergeRows
    requires AllBindable(ProductRows(ReadPage(source, Resume(input, now).token).items))
    ensures var s := Resume(input, now);
      var page := ReadPage(source, s.token);
      var fault := WriteFaultAt(faults, s.token);
      var error := if fault.Some? then fault.value else TooManyParametersError;
      var (r, t') := StepSpec(source, input, t, faults, now, later);
      && r.Ok? && t' == t
      && TotalOf(r.value) == s.totalMigrated && FailuresOf(r.value) == s.failures + page.count
      && ReportsOf(r.value) == s.reports + [Some(Failed(error, page.count))]
  {
    var s := Resume(input, now);
    var page := ReadPage(source, s.token);
    var fault := WriteFaultAt(faults, s.token);
    if fault.None? {
      LargeBatchFails(t, page.items);
    } else {
      WriteFailsAtomically(t, page.items, fault);
    }
    StepWritesPage(source, input, t, faults, now, later);
  }

  /**
   * A state an invocation continues with resumes unchanged: its start time is
   * already set. Under this model's paging a continuing page is a full one, so
   * fewer documents remain after it.
   */
  lemma ResumeContinued(
    source: seq<Document>, input: Option<JobState>, t: Tables,
    faults: map<Token, Fault>, now: real, later: real)
    requires StepSpec(source, input, t, faults, now, later).0.Ok?
    requires StepSpec(source, input, t, faults, now, later).0.value.ContinueAsNew?
    ensures var s' := StepSpec(source, input, t, faults, now, later).0.value.state;
      && Resume(Some(s'), now) == s'
      && Remaining(source, s'.token) < Remaining(source, Resume(input, now).token)
  {
    StepAccounting(source, input, t, faults, now, later);
  }

  /** Re-running an invocation on the tables it left, as a retry or a replay does, changes no table. */
  lemma StepRetry(
    source: seq<Document>, input: Option<JobState>, t: Tables,
    faults: map<Token, Fault>, now: real, later: real)
    ensures var t1 := StepSpec(source, input, t, faults, now, later).1;
      StepSpec(source, input, t1, faults, now, later).1 == t1
  {
    var s := Resume(input, now);
    var page := ReadPage(source, s.token);
    if ReadFaultAt(faults, s.token).None? && page.count > 0 {
      WriteIdempotent(t, page.items, WriteFaultAt(faults, s.token));
    }
  }

  // ---------------------------------------------------------------- the whole migration

  /** How much is left to read from the state the next invocation starts in. */
  function Left(source: seq<Document>, input: Option<JobState>, now: real): nat {
    Remaining(source, Resume(input, now).token)
  }

  /** No read along the chain of continuation tokens from `token` on raises. */
  predicate ReadsSucceed(source: seq<Document>, token: Option<Token>, faults: map<Token, Fault>)
    decreases Remaining(source, token)
  {
    ReadFaultAt(faults, token).None?
    && var p := ReadPage(source, token);
       p.nextToken.Some? ==> ReadsSucceed(source, p.nextToken, faults)
  }

  /**
   * The chain of invocations `continue_as_new` produces, up to the completed
   * report, or up to the read that fails the orchestration. It completes exactly
   * when no read along the chain raises.
   */
  function RunSpec(
    source: seq<Document>, input: Option<JobState>, t: Tables,
    faults: map<Token, Fault>, now: real, later: real): (r: (Result<MigrationResult, string>, Tables))
    decreases Left(source, input, now)
    ensures r.0.Ok? <==> ReadsSucceed(source, Resume(input, now).token, faults)
  {
    var step := StepSpec(source, input, t, faults, now, later);
    match step.0
    case Err(e) => (Err(e), step.1)
    case Ok(Completed(result)) => (Ok(result), step.1)
    case Ok(ContinueAsNew(s')) =>
      ResumeContinued(source, input, t, faults, now, later);
      RunSpec(source, Some(s'), step.1, faults, now, later)
  }

  /**
   * Drives the orchestration: invokes `Step` and feeds each continuation back in,
   * until it completes or an invocation fails.
   */
  method Run(
    source: seq<Document>, db: SqlDatabase,
    faults: map<Token, Fault>, now: real, later: real) returns (result: Result<MigrationResult, string>)
    modifies db
    ensures (result, db.Snapshot()) == RunSpec(source, None, old(db.Snapshot()), faults, now, later)
  {
    var input: Option<JobState> := None;
    while true
      invariant RunSpec(source, input, db.Snapshot(), faults, now, later)
        == RunSpec(source, None, old(db.Snapshot()), faults, now, later)
      decreases Left(source, input, now)
    {
      ghost var before := db.Snapshot();
      var out := Step(source, input, db, faults, now, later);
      match out {
        case Err(e) =>
          return Err(e);
        case Ok(Completed(r)) =>
          return Ok(r);
        case Ok(ContinueAsNew(s')) =>
          ResumeContinued(source, input, before, faults, now, later);
          input := Some(s');
      }
    }
  }

  /**
   * Across a chain that completes, every document left to read is counted
   * exactly once, as migrated or as failed. There is one report per page the
   * reader returns, and the earlier reports are kept. The duration runs from
   * the start time.
   */
  lemma {:induction false} RunTotals(
    source: seq<Document>, input: Option<JobState>, t: Tables,
    faults: map<Token, Fault>, now: real, later: real)
    decreases Left(source, input, now)
    ensures var s := Resume(input, now);
      var r := RunSpec(source, input, t, faults, now, later).0;
      r.Ok? ==>
      && r.value.totalRecords + r.value.failures == s.totalMigrated + s.failures + Remaining(source, s.token)
      && r.value.totalRecords >= s.totalMigrated && r.value.failures >= s.failures
      && |r.value.reports| == |s.reports| + |ReadAll(source, s.token)|
      && r.value.reports[..|s.reports|] == s.reports
      && r.value.durationSeconds == later - s.startTime
  {
    var s := Resume(input, now);
    var (out, t1) := StepSpec(source, input, t, faults, now, later);
    StepAccounting(source, input, t, faults, now, later);
    ReadAllStep(source, s.token);
    if out.Ok? && out.value.ContinueAsNew? {
      var s' := out.value.state;
      ResumeContinued(source, input, t, faults, now, later);
      RunTotals(source, Some(s'), t1, faults, now, later);
      var r := RunSpec(source, Some(s'), t1, faults, now, later).0;
      assert RunSpec(source, input, t, faults, now, later).0 == r;
      if r.Ok? {
        TotalsCompose(s, s', r.value);
      }
    }
  }

  /** Chaining the counts of one invocation with those of the rest of the run. */
  lemma TotalsCompose(s: JobState, s': JobState, r: MigrationResult)
    requires s'.totalMigrated >= s.totalMigrated && s'.failures >= s.failures
    requires |s'.reports| == |s.reports| + 1 && s'.reports[..|s.reports|] == s.reports
    requires r.totalRecords >= s'.totalMigrated && r.failures >= s'.failures
    requires |r.reports| >= |s'.reports| && r.reports[..|s'.reports|] == s'.reports
    ensures r.totalRecords >= s.totalMigrated && r.failures >= s.failures
    ensures r.reports[..|s.reports|] == s.reports
  {
    assert r.reports[..|s.reports|] == r.reports[..|s'.reports|][..|s.reports|];
  }

  /**
   * A migration from no input completes exactly when no read raises, and then
   * accounts for the whole container: `total_records + failures` is the number
   * of documents. Under this model's paging there is one report per page of
   * 1000, rounded up, or a single `None` report for an empty container. The
   * duration is the clock difference.
   */
  lemma MigrateAll(source: seq<Document>, t: Tables, faults: map<Token, Fault>, now: real, later: real)
    ensures var r := RunSpec(source, None, t, faults, now, later).0;
      && (r.Ok? <==> ReadsSucceed(source, None, faults))
      && (r.Ok? ==>
            && r.value.totalRecords + r.value.failures == |source|
            && |r.value.reports| == (if |source| == 0 then 1 else (|source| + BatchSize - 1) / BatchSize)
            && r.value.durationSeconds == later - now)
  {
    assert Resume(None, now) == JobState(None, 0, 0, now, []);
    assert Remaining(source, None) == |source|;
    RunTotals(source, None, t, faults, now, later);
    ReadAllPageCount(source, None);
  }

  /** Every page from `token` on is one the store accepts: bindable values, at most 525 rows, distinct ids. */
  predicate PagesWritable(source: seq<Document>, token: Option<Token>) {
    var pages := ReadAll(source, token);
    forall i :: 0 <= i < |pages| ==> Writable(ProductRows(pages[i].items))
  }

  /**
   * Under this model's paging every page is writable only when at most 525
   * documents remain: any earlier page is a full page of 1000, which the MERGE's
   * parameter limit refuses.
   */
  lemma WritableOnlySmall(source: seq<Document>, token: Option<Token>)
    requires PagesWritable(source, token)
    ensures Remaining(source, token) <= MaxMergeRows
  {
    var p := ReadPage(source, token);
    ReadAllStep(source, token);
    assert Writable(ProductRows(ReadAll(source, token)[0].items));
  }

  /**
   * Without store failures, and with every page writable, the migration
   * completes and no document is counted as failed: every remaining document is
   * migrated. By `WritableOnlySmall` this covers at most 525 remaining documents,
   * which a single invocation reads.
   */
  lemma RunWithoutFaults(
    source: seq<Document>, input: Option<JobState>, t: Tables, now: real, later: real)
    requires PagesWritable(source, Resume(input, now).token)
    ensures var s := Resume(input, now);
      var r := RunSpec(source, input, t, map[], now, later).0;
      && r.Ok?
      && r.value.failures == s.failures
      && r.value.totalRecords == s.totalMigrated + Remaining(source, s.token)
  {
    StepWithoutFaults(source, input, t, now, later);
  }

  /**
   * Without faults, a writable page is read and counted as migrated, never as
   * failed. Under this model's paging it is also the last page: a continuing
   * page is a full one, which is not writable.
   */
  lemma StepWithoutFaults(source: seq<Document>, input: Option<JobState>, t: Tables, now: real, later: real)
    requires PagesWritable(source, Resume(input, now).token)
    ensures var s := Resume(input, now);
      var out := StepSpec(source, input, t, map[], now, later).0;
      && out.Ok?
      && FailuresOf(out.value) == s.failures
      && TotalOf(out.value) == s.totalMigrated + ReadPage(source, s.token).count
      && ReadPage(source, s.token).count == Remaining(source, s.token)
      && out.value.Completed?
  {
    var s := Resume(input, now);
    var page := ReadPage(source, s.token);
    WritableOnlySmall(source, s.token);
    assert ReadAll(source, s.token)[0] == page;
    if page.count > 0 {
      StepWritesPage(source, input, t, map[], now, later);
    } else {
      StepEmptyPage(source, input, t, map[], now, later);
    }
  }

  /** A page of a container whose names and categories can all be bound has bindable rows too. */
  lemma PageBindable(source: seq<Document>, token: Option<Token>)
    requires AllBindable(ProductRows(source))
    ensures AllBindable(ProductRows(ReadPage(source, token).items))
  {
    if Offset(token) < |source| {
      var o, p := Offset(token), ReadPage(source, token);
      RowsOfSlice(source, o, o + p.count);
      BindableSlice(ProductRows(source), o, o + p.count);
    }
  }

  /** The rows of a run of documents are the same run of the rows. */
  lemma {:induction false} RowsOfSlice(items: seq<Document>, a: nat, b: nat)
    requires a <= b <= |items|
    ensures ProductRows(items[a..b]) == ProductRows(items)[a..b]
  {
    var slice, rows := ProductRows(items[a..b]), ProductRows(items)[a..b];
    forall i | 0 <= i < |slice| ensures slice[i] == rows[i] {
      assert items[a..b][i] == items[a + i];
    }
  }

  /** A run of bindable rows is bindable. */
  lemma BindableSlice(rows: seq<ProductRow>, a: nat, b: nat)
    requires AllBindable(rows) && a <= b <= |rows|
    ensures AllBindable(rows[a..b])
  {
    forall r | r in rows[a..b] ensures r in rows {
      var i :| a <= i < b && rows[i] == r;
    }
  }

  /** One invocation over bindable documents migrates nothing from a page of more than 525, and at most its documents from a smaller one. */
  lemma StepMigratesPartial(
    source: seq<Document>, input: Option<JobState>, t: Tables,
    faults: map<Token, Fault>, now: real, later: real)
    requires AllBindable(ProductRows(source))
    ensures var s := Resume(input, now);
      var page := ReadPage(source, s.token);
      var r := StepSpec(source, input, t, faults, now, later).0;
      r.Ok? ==> TotalOf(r.value) <= s.totalMigrated + (if page.count > MaxMergeRows then 0 else page.count)
  {
    var s := Resume(input, now);
    var page := ReadPage(source, s.token);
    StepAccounting(source, input, t, faults, now, later);
    if ReadFaultAt(faults, s.token).None? && page.count > MaxMergeRows {
      PageBindable(source, s.token);
      OversizedPageFails(source, input, t, faults, now, later);
    }
  }

  /**
   * With documents whose names and categories can all be bound, every full page
   * fails on the parameter limit, so under this model's paging a run that
   * completes migrates at most the documents of the last, partial page: what
   * remains modulo 1000.
   */
  lemma {:induction false} MigratesOnlyLastPage(
    source: seq<Document>, input: Option<JobState>, t: Tables,
    faults: map<Token, Fault>, now: real, later: real)
    requires AllBindable(ProductRows(source))
    decreases Left(source, input, now), 1
    ensures var s := Resume(input, now);
      var r := RunSpec(source, input, t, faults, now, later).0;
      r.Ok? ==> r.value.totalRecords <= s.totalMigrated + Remaining(source, s.token) % BatchSize
  {
    var step := StepSpec(source, input, t, faults, now, later);
    if step.0.Ok? && step.0.value.ContinueAsNew? {
      MigratesAfterFullPage(source, input, t, faults, now, later);
    } else {
      MigratesInLastStep(source, input, t, faults, now, later);
    }
  }

  /** The bound when the invocation continues: its full page migrated nothing, and the rest is bounded by induction. */
  lemma {:induction false} MigratesAfterFullPage(
    source: seq<Document>, input: Option<JobState>, t: Tables,
    faults: map<Token, Fault>, now: real, later: real)
    requires AllBindable(ProductRows(source))
    requires StepSpec(source, input, t, faults, now, later).0.Ok?
    requires StepSpec(source, input, t, faults, now, later).0.value.ContinueAsNew?
    decreases Left(source, input, now), 0
    ensures var s := Resume(input, now);
      var r := RunSpec(source, input, t, faults, now, later).0;
      r.Ok? ==> r.value.totalRecords <= s.totalMigrated + Remaining(source, s.token) % BatchSize
  {
    var s := Resume(input, now);
    var step := StepSpec(source, input, t, faults, now, later);
    var s' := step.0.value.state;
    var r := RunSpec(source, input, t, faults, now, later).0;
    if r.Ok? {
      var rest := Remaining(source, s'.token);
      assert s'.totalMigrated <= s.totalMigrated && Remaining(source, s.token) == BatchSize + rest by {
        StepMigratesPartial(source, input, t, faults, now, later);
        ReadAllStep(source, s.token);
      }
      assert r.value.totalRecords <= s'.totalMigrated + rest % BatchSize by {
        ResumeContinued(source, input, t, faults, now, later);
        assert r == RunSpec(source, Some(s'), step.1, faults, now, later).0;
        MigratesOnlyLastPage(source, Some(s'), step.1, faults, now, later);
      }
      BoundAfterFullPage(r.value.totalRecords, s.totalMigrated, s'.totalMigrated, Remaining(source, s.token), rest);
    }
  }

  /** The bound when the invocation ends the chain: only its own, last page can be migrated. */
  lemma MigratesInLastStep(
    source: seq<Document>, input: Option<JobState>, t: Tables,
    faults: map<Token, Fault>, now: real, later: real)
    requires AllBindable(ProductRows(source))
    requires !StepSpec(source, input, t, faults, now, later).0.Ok?
      || !StepSpec(source, input, t, faults, now, later).0.value.ContinueAsNew?
    ensures var s := Resume(input, now);
      var r := RunSpec(source, input, t, faults, now, later).0;
      r.Ok? ==> r.value.totalRecords <= s.totalMigrated + Remaining(source, s.token) % BatchSize
  {
    var s := Resume(input, now);
    var page := ReadPage(source, s.token);
    var r := RunSpec(source, input, t, faults, now, later).0;
    if r.Ok? {
      assert r.value.totalRecords <= s.totalMigrated + (if page.count > MaxMergeRows then 0 else page.count) by {
        StepMigratesPartial(source, input, t, faults, now, later);
      }
      assert Remaining(source, s.token) == page.count by {
        ReadAllStep(source, s.token);
      }
      RemainderOfLastPage(page.count);
    }
  }

  lemma BoundAfterFullPage(total: nat, before: nat, after: nat, left: nat, rest: nat)
    requires after <= before && left == BatchSize + rest && total <= after + rest % BatchSize
    ensures total <= before + left % BatchSize
  {
  }

  lemma RemainderOfLastPage(count: nat)
    requires count <= BatchSize
    ensures (if count > MaxMergeRows then 0 else count) <= count % BatchSize
  {
  }

  /** A one-document container whose write times out: the document is counted failed and nothing is written. */
  lemma FailedWriteExample(doc: Document, t: Tables, now: real, later: real)
    ensures RunSpec([doc], None, t, map[0 := WriteFails("timeout")], now, later)
      == (Ok(MigrationResult(0, 1, later - now, [Some(Failed("timeout", 1))])), t)
  {
    var faults := map[0 := WriteFails("timeout")];
    var s := Resume(None, now);
    var page := ReadPage([doc], s.token);
    assert page == Page([doc], None, 1);
    assert ReadFaultAt(faults, s.token) == None;
    assert WriteFaultAt(faults, s.token) == Some("timeout");
    assert WritePage(t, page, Some("timeout")) == (Err("timeout"), t);
    var s' := Record(s, 1, Err("timeout"));
    assert s' == JobState(None, 0, 1, now, [Some(Failed("timeout", 1))]);
    assert StepSpec([doc], None, t, faults, now, later)
      == (Ok(Completed(MigrationResult(0, 1, later - now, [Some(Failed("timeout", 1))]))), t);
  }

  /** A first read that raises fails the orchestration with the reader's error; nothing is written or reported. */
  lemma ReadFailureExample(source: seq<Document>, t: Tables, now: real, later: real)
    ensures RunSpec(source, None, t, map[0 := ReadFails("ServiceUnavailable")], now, later)
      == (Err("ServiceUnavailable"), t)
  {
    var faults := map[0 := ReadFails("ServiceUnavailable")];
    assert ReadFaultAt(faults, Resume(None, now).token) == Some("ServiceUnavailable");
  }

  /** An empty container whose read succeeds completes at once with nothing migrated, one `None` report and the tables untouched. */
  lemma MigrateEmpty(t: Tables, faults: map<Token, Fault>, now: real, later: real)
    requires ReadFaultAt(faults, None).None?
    ensures RunSpec([], None, t, faults, now, later) == (Ok(MigrationResult(0, 0, later - now, [None])), t)
  {
    var s := Resume(None, now);
    assert ReadPage([], s.token) == Page([], None, 0);
    assert Record(s, 0, Ok(NoItems)) == s.(reports := [None]);
    assert StepSpec([], None, t, faults, now, later)
      == (Ok(Completed(MigrationResult(0, 0, later - now, [None]))), t);
  }

  /** Where an invocation starts: its input and the tables it finds. */
  datatype Checkpoint = Checkpoint(input: Option<JobState>, tables: Tables)

  /** What one invocation leads to: the end of the chain (completed or failed), or the checkpoint of the next invocation. */
  datatype Advance = Ends | Continues(next: Checkpoint)

  function Next(
    source: seq<Document>, cp: Checkpoint,
    faults: map<Token, Fault>, now: real, later: real): Advance
  {
    var step := StepSpec(source, cp.input, cp.tables, faults, now, later);
    if step.0.Ok? && step.0.value.ContinueAsNew? then Continues(Checkpoint(Some(step.0.value.state), step.1)) else Ends
  }

  /** The chain of invocations as a transition on checkpoints. */
  function Invocation(
    source: seq<Document>, faults: map<Token, Fault>, now: real, later: real): Checkpoint -> Advance
  {
    cp => Next(source, cp, faults, now, later)
  }

  /** The final result and tables of the chain run on from a checkpoint. */
  function RunFrom(
    source: seq<Document>, cp: Checkpoint,
    faults: map<Token, Fault>, now: real, later: real): (Result<MigrationResult, string>, Tables)
  {
    RunSpec(source, cp.input, cp.tables, faults, now, later)
  }

  function Outcome(
    source: seq<Document>, faults: map<Token, Fault>, now: real, later: real
  ): Checkpoint -> (Result<MigrationResult, string>, Tables)
  {
    cp => RunFrom(source, cp, faults, now, later)
  }

  /** The checkpoint after `k` steps of `next`, or where the chain ends if that comes first. */
  function AfterBy(next: Checkpoint -> Advance, cp: Checkpoint, k: nat): Checkpoint
    decreases k
  {
    if k == 0 then cp
    else
      match next(cp)
      case Ends => cp
      case Continues(c) => AfterBy(next, c, k - 1)
  }

  /** The checkpoint after `k` continuations of the migration. */
  function After(
    source: seq<Document>, cp: Checkpoint,
    faults: map<Token, Fault>, now: real, later: real, k: nat): Checkpoint
  {
    AfterBy(Invocation(source, faults, now, later), cp, k)
  }

  /** A value every continuation preserves is the same at every checkpoint of the chain. */
  lemma {:induction false} AfterPreserves(
    next: Checkpoint -> Advance, f: Checkpoint -> (Result<MigrationResult, string>, Tables), cp: Checkpoint, k: nat)
    requires forall c :: next(c).Continues? ==> f(next(c).next) == f(c)
    decreases k
    ensures f(AfterBy(next, cp, k)) == f(cp)
  {
    if k > 0 && next(cp).Continues? {
      AfterPreserves(next, f, next(cp).next, k - 1);
    }
  }

  /** One continuation does not change where the run ends. */
  lemma RunFromNext(
    source: seq<Document>, cp: Checkpoint,
    faults: map<Token, Fault>, now: real, later: real)
    requires Next(source, cp, faults, now, later).Continues?
    ensures RunFrom(source, Next(source, cp, faults, now, later).next, faults, now, later)
      == RunFrom(source, cp, faults, now, later)
  {
  }

  /**
   * Resuming from any checkpoint the chain passes through gives the same final
   * result and tables as running on from the start: the state carried by
   * `continue_as_new` is all the orchestration needs.
   */
  lemma ResumeFromCheckpoint(
    source: seq<Document>, cp: Checkpoint,
    faults: map<Token, Fault>, now: real, later: real, k: nat)
    ensures RunFrom(source, After(source, cp, faults, now, later, k), faults, now, later)
      == RunFrom(source, cp, faults, now, later)
  {
    var next := Invocation(source, faults, now, later);
    var f := Outcome(source, faults, now, later);
    forall c | next(c).Continues? ensures f(next(c).next) == f(c) {
      RunFromNext(source, c, faults, now, later);
    }
    AfterPreserves(next, f, cp, k);
  }
}

=== FILE: prime.dfy ===
/** `is_prime`: trial division by every candidate from 2 up to the integer square root. */
module Primes {

  /** `n` is prime: greater than 1, with no divisor strictly between 1 and `n`. */
  predicate Prime(n: int) {
    n > 1 && forall d :: 2 <= d < n ==> n % d != 0
  }

  /** The integer square root, `isqrt(n)`. */
  function ISqrt(n: nat): (r: nat)
    ensures r * r <= n < (r + 1) * (r + 1)
  {
    if n == 0 then 0
    else
      var r := ISqrt(n - 1);
      if (r + 1) * (r + 1) <= n then r + 1 else r
  }

  /** `is_prime(n)`: false for `n <= 1`; otherwise false exactly when a candidate in `2..isqrt(n)` divides `n`. */
  method IsPrime(n: int) returns (r: bool)
    ensures r <==> Prime(n)
  {
    if n <= 1 {
      return false;
    }
    var limit := ISqrt(n);
    RootBelow(n);
    var i := 2;
    while i <= limit
      invariant 2 <= i <= limit + 1
      invariant forall d :: 2 <= d < i ==> n % d != 0
    {
      if n % i == 0 {
        return false;
      }
      i := i + 1;
    }
    NoSmallDivisor(n);
    return true;
  }

  /** For `n >= 2` the square root lies below `n`, so a divisor the loop finds is a proper one. */
  lemma RootBelow(n: nat)
    requires n >= 2
    ensures ISqrt(n) < n
  {
    var r := ISqrt(n);
    if r >= n {
      MulMono(n, r, n, r);
      MulMono(2, n, 1, n);
      assert false;
    }
  }

  /**
   * Trial division up to the square root suffices: a number above 1 with no
   * divisor in `2..isqrt(n)` has none below itself.
   */
  lemma NoSmallDivisor(n: int)
    requires n > 1
    requires forall d :: 2 <= d <= ISqrt(n) ==> n % d != 0
    ensures Prime(n)
  {
    forall d | 2 <= d < n ensures n % d != 0 {
      if n % d == 0 {
        var e := SmallDivisor(n, d);
        assert false;
      }
    }
  }

  /** A proper divisor of `n` gives one no larger than the square root: itself or its cofactor. */
  lemma SmallDivisor(n: int, d: int) returns (e: int)
    requires n > 1 && 2 <= d < n && n % d == 0
    ensures 2 <= e <= ISqrt(n) && n % e == 0
  {
    var r := ISqrt(n);
    if d <= r {
      return d;
    }
    e := n / d;
    assert n == d * e;
    CofactorSmall(n, d, e, r);
    ModOfProduct(n, e, d);
  }

  /** When `n == d * e` with `d` above the square root, the cofactor `e` is a candidate at most the square root. */
  lemma CofactorSmall(n: int, d: int, e: int, r: nat)
    requires n > 1 && 2 <= d < n && n == d * e
    requires r * r <= n < (r + 1) * (r + 1) && d > r
    ensures 2 <= e <= r
  {
    if e <= 0 {
      MulMono(0, d, e, 0);
      assert false;
    }
    if e == 1 {
      assert false;
    }
    if e > r {
      MulMono(r + 1, d, r + 1, e);
      assert false;
    }
  }

  lemma ModOfProduct(n: int, e: int, d: int)
    requires e > 0 && n == e * d
    ensures n % e == 0
  {
    var q, m := n / e, n % e;
    assert n == e * q + m && 0 <= m < e;
    assert e * (d - q) == m;
    if d - q >= 1 {
      MulMono(e, e, 1, d - q);
      assert false;
    } else if d - q <= -1 {
      MulMono(e, e, 1, q - d);
      assert false;
    }
  }

  lemma MulMono(a: int, b: int, c: int, d: int)
    requires 0 <= a <= b && 0 <= c <= d
    ensures a * c <= b * d
  {
    assert a * c <= b * c;
    assert b * c <= b * d;
  }

  /** Two and three are prime: the candidate range is empty for them. */
  lemma SmallPrimes()
    ensures Prime(2) && Prime(3) && !Prime(1) && !Prime(0) && !Prime(-7) && !Prime(4) && !Prime(9)
  {
    assert 4 % 2 == 0;
    assert 9 % 3 == 0;
  }
}

=== FILE: pytext.dfy ===
/**
 * The few Python `str` operations the modelled code relies on: `isspace`,
 * `strip`, `lower`, `in`, `find`, `split(sep)`, `split()`, `replace(c, "")`
 * and `str()` of an integer.
 */
module PyText {
  import opened Wrappers

  /** `c.isspace()` for a Python 3 `str` character. */
  predicate IsSpace(c: char) {
    c == ' ' || ('\t' <= c <= '\r') || ('\U{1C}' <= c <= '\U{1F}')
    || c == '\U{85}' || c == '\U{A0}' || c == '\U{1680}'
    || ('\U{2000}' <= c <= '\U{200A}') || c == '\U{2028}' || c == '\U{2029}'
    || c == '\U{202F}' || c == '\U{205F}' || c == '\U{3000}'
  }

  /** `s.lstrip()`: drops the leading whitespace and nothing else. */
  function StripLeft(s: string): (r: string)
    ensures |r| <= |s| && r == s[|s| - |r|..]
    ensures r == [] || !IsSpace(r[0])
    ensures forall i :: 0 <= i < |s| - |r| ==> IsSpace(s[i])
  {
    if |s| > 0 && IsSpace(s[0]) then StripLeft(s[1..]) else s
  }

  /** `s.rstrip()`: drops the trailing whitespace and nothing else. */
  function StripRight(s: string): (r: string)
    ensures |r| <= |s| && r == s[..|r|]
    ensures r == [] || !IsSpace(r[|r| - 1])
    ensures forall i :: |r| <= i < |s| ==> IsSpace(s[i])
  {
    if |s| > 0 && IsSpace(s[|s| - 1]) then StripRight(s[..|s| - 1]) else s
  }

  /**
   * `s.strip()`: keeps the text between the first and the last non-space
   * characters, so the result neither starts nor ends with whitespace.
   */
  function Strip(s: string): (r: string)
    ensures |r| <= |s| && forall c :: c in r ==> c in s
    ensures r == [] || (!IsSpace(r[0]) && !IsSpace(r[|r| - 1]))
    ensures exists i, j :: StrippedAt(s, i, j) && r == s[i..j]
  {
    var l := StripLeft(s);
    var r := StripRight(l);
    assert r != [] ==> r[0] == l[0];
    StripAt(s, l, r);
    r
  }

  /**
   * `s[i..j]` is what is left of `s` once its surrounding whitespace goes:
   * everything outside it is whitespace and it neither starts nor ends with any.
   */
  predicate StrippedAt(s: string, i: int, j: int) {
    && 0 <= i <= j <= |s|
    && (forall k :: 0 <= k < i ==> IsSpace(s[k]))
    && (forall k :: j <= k < |s| ==> IsSpace(s[k]))
    && (i < j ==> !IsSpace(s[i]) && !IsSpace(s[j - 1]))
  }

  /** A suffix of `s` after whitespace, cut before more whitespace, lies in `s` between whitespace. */
  lemma StripAt(s: string, l: string, r: string)
    requires |l| <= |s| && l == s[|s| - |l|..] && forall k :: 0 <= k < |s| - |l| ==> IsSpace(s[k])
    requires |r| <= |l| && r == l[..|r|] && forall k :: |r| <= k < |l| ==> IsSpace(l[k])
    requires r == [] || (!IsSpace(r[0]) && !IsSpace(r[|r| - 1]))
    ensures StrippedAt(s, |s| - |l|, |s| - |l| + |r|) && r == s[|s| - |l|..|s| - |l| + |r|]
  {
    var i := |s| - |l|;
    forall k | i + |r| <= k < |s| ensures IsSpace(s[k]) {
      assert s[k] == l[k - i];
    }
    assert r == s[i..i + |r|];
    if r != [] {
      assert s[i] == r[0] && s[i + |r| - 1] == r[|r| - 1];
    }
  }

  /** A string with no surrounding whitespace is its own strip. */
  lemma StripNoSpace(s: string)
    requires s == [] || (!IsSpace(s[0]) && !IsSpace(s[|s| - 1]))
    ensures Strip(s) == s
  {
  }

  /** ASCII case folding: `lower()` on the characters `A`..`Z`. */
  function LowerChar(c: char): char {
    if 'A' <= c <= 'Z' then (c as int + 32) as char else c
  }

  function Lower(s: string): string {
    seq(|s|, i requires 0 <= i < |s| => LowerChar(s[i]))
  }

  /** Lower-casing twice is lower-casing once. */
  lemma LowerTwice(s: string)
    ensures Lower(Lower(s)) == Lower(s)
  {
    forall i | 0 <= i < |s| ensures Lower(Lower(s))[i] == Lower(s)[i] {
      assert Lower(s)[i] == LowerChar(s[i]);
    }
  }

  /** `sub` occurs in `s` starting at index `i`. */
  predicate OccursAt(s: string, sub: string, i: nat) {
    i + |sub| <= |s| && s[i..i + |sub|] == sub
  }

  /** `s.find(sub, from)`: the first occurrence at or after `from`. */
  function FindFrom(s: string, sub: string, from: nat): (r: Option<nat>)
    requires from <= |s|
    decreases |s| - from
    ensures r.Some? ==> from <= r.value <= |s| && OccursAt(s, sub, r.value)
    ensures forall j :: from <= j <= |s| && (r.None? || j < r.value) ==> !OccursAt(s, sub, j)
  {
    if OccursAt(s, sub, from) then Some(from)
    else if from == |s| then None
    else FindFrom(s, sub, from + 1)
  }

  function Find(s: string, sub: string): Option<nat> {
    FindFrom(s, sub, 0)
  }

  /** Python's `sub in s`. */
  predicate Contains(s: string, sub: string) {
    Find(s, sub).Some?
  }

  /** `s.rfind(c)`: the last index holding `c`, if any. */
  function RFind(s: string, c: char): (r: Option<nat>)
    ensures r.Some? ==> r.value < |s| && s[r.value] == c && forall j :: r.value < j < |s| ==> s[j] != c
    ensures r.None? ==> c !in s
  {
    if s == [] then None
    else if s[|s| - 1] == c then Some(|s| - 1)
    else RFind(s[..|s| - 1], c)
  }

  /**
   * `s.split(sep)[1]`: the text between the first and the second occurrence of
   * `sep`, or to the end. It starts right after the first occurrence and stops
   * at the end of `s` or where `sep` occurs next, and `sep` does not occur in it.
   */
  function SplitSecond(s: string, sep: string): (r: string)
    requires |sep| > 0 && Contains(s, sep)
    ensures var start := Find(s, sep).value + |sep|;
      && start + |r| <= |s| && r == s[start..start + |r|]
      && (start + |r| == |s| || OccursAt(s, sep, start + |r|))
    ensures !Contains(r, sep)
    ensures forall c :: c in r ==> c in s
  {
    var i := Find(s, sep).value;
    var rest := s[i + |sep|..];
    var r := match Find(rest, sep) case Some(j) => rest[..j] case None => rest;
    assert r == s[i + |sep|..i + |sep| + |r|];
    OccursInPrefix(rest, r, sep);
    if Find(rest, sep).Some? then OccursInSuffix(s, sep, i + |sep|, Find(rest, sep).value); r else r
  }

  /** An occurrence inside a prefix is an occurrence in the whole string. */
  lemma OccursInPrefix(s: string, p: string, sub: string)
    requires |p| <= |s| && p == s[..|p|]
    ensures forall k :: 0 <= k <= |p| && OccursAt(p, sub, k) ==> OccursAt(s, sub, k)
  {
    forall k | 0 <= k <= |p| && OccursAt(p, sub, k) ensures OccursAt(s, sub, k) {
      assert s[k..k + |sub|] == p[k..k + |sub|];
    }
  }

  /** An occurrence in the suffix from `from` is an occurrence in the whole string, shifted by `from`. */
  lemma OccursInSuffix(s: string, sub: string, from: nat, j: nat)
    requires from <= |s| && OccursAt(s[from..], sub, j)
    ensures OccursAt(s, sub, from + j)
  {
    assert s[from + j..from + j + |sub|] == s[from..][j..j + |sub|];
  }

  /**
   * `s.replace(c, "")`: every occurrence of `c` removed, every other character
   * kept as often as it occurs. `RemoveAllAppend` gives the order.
   */
  function RemoveAll(s: string, c: char): (r: string)
    ensures c !in r
    ensures forall x :: x in r <==> x in s && x != c
    ensures multiset(r) == multiset(s)[c := 0]
  {
    if s == [] then []
    else
      assert s == [s[0]] + s[1..];
      (if s[0] == c then [] else [s[0]]) + RemoveAll(s[1..], c)
  }

  /** Removal works piece by piece, so the kept characters stay in their order. */
  lemma {:induction false} RemoveAllAppend(a: string, b: string, c: char)
    ensures RemoveAll(a + b, c) == RemoveAll(a, c) + RemoveAll(b, c)
  {
    if a == [] {
      assert a + b == b;
    } else {
      var t := a[1..];
      RemoveAllAppend(t, b, c);
      RemoveAllAppendStep(a, b, c);
    }
  }

  /** The step of `RemoveAllAppend`: `a + b` starts with `a[0]` and goes on with `a[1..] + b`. */
  lemma RemoveAllAppendStep(a: string, b: string, c: char)
    requires a != []
    requires RemoveAll(a[1..] + b, c) == RemoveAll(a[1..], c) + RemoveAll(b, c)
    ensures RemoveAll(a + b, c) == RemoveAll(a, c) + RemoveAll(b, c)
  {
    var ab := a + b;
    TailOfAppend(a, b);
    var h: string := if a[0] == c then [] else [a[0]];
    assert RemoveAll(ab, c) == h + RemoveAll(a[1..] + b, c);
    assert RemoveAll(a, c) == h + RemoveAll(a[1..], c);
    AppendAssoc(h, RemoveAll(a[1..], c), RemoveAll(b, c));
  }

  /** Concatenation regroups freely. */
  lemma AppendAssoc(x: string, y: string, z: string)
    ensures x + (y + z) == (x + y) + z
  {
  }

  /** A non-empty `a` gives `a + b` its first character, and `a[1..] + b` follows it. */
  lemma TailOfAppend(a: string, b: string)
    requires a != []
    ensures (a + b)[0] == a[0] && (a + b)[1..] == a[1..] + b
  {
  }

  /** Removing a character that does not occur changes nothing. */
  lemma {:induction false} RemoveAllAbsent(s: string, c: char)
    requires c !in s
    ensures RemoveAll(s, c) == s
  {
    if s != [] {
      RemoveAllAbsent(s[1..], c);
    }
  }


  /** Length of the leading run of non-whitespace characters. */
  function TokenEnd(s: string): (k: nat)
    ensures k <= |s| && (k < |s| ==> IsSpace(s[k]))
    ensures forall i :: 0 <= i < k ==> !IsSpace(s[i])
  {
    if s == [] || IsSpace(s[0]) then 0 else 1 + TokenEnd(s[1..])
  }

  predicate IsToken(t: string) {
    t != [] && forall i :: 0 <= i < |t| ==> !IsSpace(t[i])
  }

  /**
   * `s.split()` with no separator: maximal runs of non-whitespace, left to
   * right. Every token it yields is non-empty and free of whitespace.
   */
  function Split(s: string): (ts: seq<string>)
    decreases |s|
    ensures AllTokens(ts)
  {
    var t := StripLeft(s);
    if t == [] then []
    else
      var k := TokenEnd(t);
      var rest := Split(t[k..]);
      LeadingToken(t);
      ConsTokens(t[..k], rest);
      [t[..k]] + rest
  }

  predicate AllTokens(ts: seq<string>) {
    forall k :: 0 <= k < |ts| ==> IsToken(ts[k])
  }

  /** The leading run of a string that starts with a non-space is a token. */
  lemma LeadingToken(t: string)
    requires t != [] && !IsSpace(t[0])
    ensures IsToken(t[..TokenEnd(t)])
  {
    var k := TokenEnd(t);
    assert t[..k][0] == t[0];
  }

  lemma ConsTokens(t: string, ts: seq<string>)
    requires IsToken(t) && AllTokens(ts)
    ensures AllTokens([t] + ts)
  {
    forall j | 0 <= j < |[t] + ts| ensures IsToken(([t] + ts)[j]) {
      if j > 0 {
        assert ([t] + ts)[j] == ts[j - 1];
      }
    }
  }

  /** The tokens joined by single spaces. */
  function JoinSpace(ts: seq<string>): string {
    if ts == [] then []
    else if |ts| == 1 then ts[0]
    else ts[0] + " " + JoinSpace(ts[1..])
  }

  /** `split()` undoes a single-space join of tokens: it neither loses, merges nor invents tokens. */
  lemma {:induction false} SplitJoin(ts: seq<string>)
    requires AllTokens(ts)
    ensures Split(JoinSpace(ts)) == ts
  {
    if |ts| == 1 {
      assert JoinSpace(ts) == ts[0] + [];
      SplitToken(ts[0], []);
    } else if |ts| > 1 {
      var t, tail := ts[0], ts[1..];
      TailTokens(ts);
      SplitJoin(tail);
      SplitJoinStep(t, tail);
      assert [t] + tail == ts;
    }
  }

  lemma TailTokens(ts: seq<string>)
    requires ts != [] && AllTokens(ts)
    ensures IsToken(ts[0]) && AllTokens(ts[1..])
  {
    forall k | 0 <= k < |ts| - 1 ensures IsToken(ts[1..][k]) {
      assert ts[1..][k] == ts[k + 1];
    }
  }

  /** One step of the join: the head token, a space, and the rest. */
  lemma SplitJoinStep(t: string, tail: seq<string>)
    requires IsToken(t) && tail != []
    requires Split(JoinSpace(tail)) == tail
    ensures Split(JoinSpace([t] + tail)) == [t] + tail
  {
    var rest := JoinSpace(tail);
    JoinSpaceCons(t, tail);
    SplitToken(t, " " + rest);
    SplitSpace(rest);
  }

  lemma JoinSpaceCons(t: string, tail: seq<string>)
    requires tail != []
    ensures JoinSpace([t] + tail) == t + (" " + JoinSpace(tail))
  {
    assert ([t] + tail)[1..] == tail;
  }

  /** A token followed by whitespace (or nothing) is split off as one token. */
  lemma SplitToken(t: string, rest: string)
    requires IsToken(t)
    requires rest == [] || IsSpace(rest[0])
    ensures Split(t + rest) == [t] + Split(rest)
  {
    var s := t + rest;
    assert s[0] == t[0];
    assert StripLeft(s) == s;
    TokenEndOf(t, rest);
    assert s[|t|..] == rest;
  }

  /** Leading whitespace does not change the split. */
  lemma SplitSpace(rest: string)
    ensures Split(" " + rest) == Split(rest)
  {
    assert (" " + rest)[1..] == rest;
  }

  lemma {:induction false} TokenEndOf(t: string, rest: string)
    requires forall i :: 0 <= i < |t| ==> !IsSpace(t[i])
    requires rest == [] || IsSpace(rest[0])
    ensures TokenEnd(t + rest) == |t| && (t + rest)[..|t|] == t
  {
    if t != [] {
      assert (t + rest)[1..] == t[1..] + rest;
      TokenEndOf(t[1..], rest);
    }
  }

  predicate IsDigit(c: char) {
    '0' <= c <= '9'
  }

  predicate AllDigits(s: string) {
    forall i :: 0 <= i < |s| ==> IsDigit(s[i])
  }

  function DigitChar(d: nat): char
    requires d < 10
  {
    ('0' as int + d) as char
  }

  /** `str(n)` for a non-negative integer: decimal, no leading zeros. */
  function NatToString(n: nat): (r: string)
    ensures r != [] && AllDigits(r)
  {
    if n < 10 then [DigitChar(n)] else NatToString(n / 10) + [DigitChar(n % 10)]
  }

  /** `str(i)` for any integer. */
  function IntToString(i: int): string {
    if i < 0 then "-" + NatToString(-i) else NatToString(i)
  }

  /** The number a string of decimal digits denotes. */
  function DigitsValue(s: string): nat
    requires AllDigits(s)
  {
    if s == [] then 0 else 10 * DigitsValue(s[..|s| - 1]) + (s[|s| - 1] as int - '0' as int)
  }

  /** Reading back the decimal text of `n` gives `n`. */
  lemma {:induction false} NatToStringRoundTrip(n: nat)
    ensures DigitsValue(NatToString(n)) == n
  {
    if n >= 10 {
      NatToStringRoundTrip(n / 10);
      var s := NatToString(n);
      assert s[..|s| - 1] == NatToString(n / 10);
    }
  }
}

=== FILE: token_set.dfy ===
/**
 * The token pipeline: split a line on whitespace, keep the tokens as a tuple,
 * turn the tuple into a set, and sort the set. Strings are ordered as Python
 * orders them: lexicographically by code point.
 */
module TokenSet {
  import opened PyText

  /** Python's `a < b` on strings. */
  predicate Less(a: string, b: string)
    decreases |a|
  {
    if a == [] then b != []
    else if b == [] then false
    else if a[0] != b[0] then a[0] < b[0]
    else Less(a[1..], b[1..])
  }

  lemma {:induction false} LessIrreflexive(a: string)
    decreases |a|
    ensures !Less(a, a)
  {
    if a != [] {
      LessIrreflexive(a[1..]);
    }
  }

  lemma {:induction false} LessTransitive(a: string, b: string, c: string)
    requires Less(a, b) && Less(b, c)
    decreases |a|
    ensures Less(a, c)
  {
    if a != [] && a[0] == b[0] && b[0] == c[0] {
      LessTransitive(a[1..], b[1..], c[1..]);
    }
  }

  lemma {:induction false} LessTotal(a: string, b: string)
    requires a != b
    decreases |a|
    ensures Less(a, b) || Less(b, a)
  {
    if a != [] && b != [] && a[0] == b[0] {
      assert a == [a[0]] + a[1..] && b == [b[0]] + b[1..];
      LessTotal(a[1..], b[1..]);
    }
  }

  /** Each element is smaller than every later one: ascending, without duplicates. */
  predicate StrictlyAscending(xs: seq<string>) {
    forall i, j :: 0 <= i < j < |xs| ==> Less(xs[i], xs[j])
  }

  /** Adds `x` to a strictly ascending sequence, unless it is already there. */
  function Insert(x: string, xs: seq<string>): seq<string> {
    if xs == [] then [x]
    else if x == xs[0] then xs
    else if Less(x, xs[0]) then [x] + xs
    else [xs[0]] + Insert(x, xs[1..])
  }

  /**
   * `sorted(set(tup))`: the distinct tokens in ascending order. The result is
   * strictly ascending, so free of duplicates, and holds exactly the input's
   * elements.
   */
  function SortedDistinct(xs: seq<string>): (r: seq<string>)
    ensures StrictlyAscending(r)
    ensures forall y :: y in r <==> y in xs
  {
    if xs == [] then []
    else
      var rest := SortedDistinct(xs[1..]);
      InsertAscending(xs[0], rest);
      InsertElems(xs[0], rest);
      assert xs == [xs[0]] + xs[1..];
      Insert(xs[0], rest)
  }

  lemma {:induction false} InsertElems(x: string, xs: seq<string>)
    ensures forall y :: y in Insert(x, xs) <==> y == x || y in xs
  {
    if xs != [] && x != xs[0] && !Less(x, xs[0]) {
      InsertElems(x, xs[1..]);
      assert xs == [xs[0]] + xs[1..];
    }
  }

  lemma {:induction false} InsertAscending(x: string, xs: seq<string>)
    requires StrictlyAscending(xs)
    ensures StrictlyAscending(Insert(x, xs))
  {
    if xs == [] || x == xs[0] {
    } else if Less(x, xs[0]) {
      var r := [x] + xs;
      forall i, j | 0 <= i < j < |r| ensures Less(r[i], r[j]) {
        if i == 0 {
          if j > 1 {
            LessTransitive(x, xs[0], xs[j - 1]);
          }
        } else {
          assert r[i] == xs[i - 1] && r[j] == xs[j - 1];
        }
      }
    } else {
      var tail := xs[1..];
      LessTotal(x, xs[0]);
      InsertAscending(x, tail);
      InsertElems(x, tail);
      var ins := Insert(x, tail);
      var r := [xs[0]] + ins;
      forall k | 0 <= k < |ins| ensures Less(xs[0], ins[k]) {
        assert ins[k] in ins;
        if ins[k] != x {
          var m :| 0 <= m < |tail| && tail[m] == ins[k];
          assert xs[m + 1] == tail[m];
        }
      }
      forall i, j | 0 <= i < j < |r| ensures Less(r[i], r[j]) {
        assert r[j] == ins[j - 1];
        if i > 0 {
          assert r[i] == ins[i - 1];
        }
      }
    }
  }

  /** A strictly ascending sequence is determined by its elements: the sorted result depends only on the set. */
  lemma {:induction false} AscendingUnique(xs: seq<string>, ys: seq<string>)
    requires StrictlyAscending(xs) && StrictlyAscending(ys)
    requires forall y :: y in xs <==> y in ys
    decreases |xs|
    ensures xs == ys
  {
    if xs != [] && ys != [] {
      // The first element of each is the smallest of the common set.
      if xs[0] != ys[0] {
        assert ys[0] in xs;
        var i :| 0 <= i < |xs| && xs[i] == ys[0];
        assert xs[0] in ys;
        var j :| 0 <= j < |ys| && ys[j] == xs[0];
        assert i > 0 && j > 0;
        LessTransitive(xs[0], ys[0], xs[0]);
        LessIrreflexive(xs[0]);
        assert false;
      }
      forall y ensures y in xs[1..] <==> y in ys[1..] {
        if y in xs[1..] {
          var i :| 1 <= i < |xs| && xs[i] == y;
          assert Less(xs[0], y);
          LessIrreflexive(y);
          assert y in ys && y != ys[0];
          var j :| 0 <= j < |ys| && ys[j] == y;
          assert y in ys[1..] by {
            assert ys[1..][j - 1] == y;
          }
        }
        if y in ys[1..] {
          var j :| 1 <= j < |ys| && ys[j] == y;
          assert Less(ys[0], y);
          LessIrreflexive(y);
          assert y in xs && y != xs[0];
          var i :| 0 <= i < |xs| && xs[i] == y;
          assert y in xs[1..] by {
            assert xs[1..][i - 1] == y;
          }
        }
      }
      assert StrictlyAscending(xs[1..]) by {
        forall i, j | 0 <= i < j < |xs| - 1 ensures Less(xs[1..][i], xs[1..][j]) {
          assert xs[1..][i] == xs[i + 1] && xs[1..][j] == xs[j + 1];
        }
      }
      assert StrictlyAscending(ys[1..]) by {
        forall i, j | 0 <= i < j < |ys| - 1 ensures Less(ys[1..][i], ys[1..][j]) {
          assert ys[1..][i] == ys[i + 1] && ys[1..][j] == ys[j + 1];
        }
      }
      AscendingUnique(xs[1..], ys[1..]);
      assert xs == [xs[0]] + xs[1..] && ys == [ys[0]] + ys[1..];
    } else if xs != [] {
      HeadIn(xs);
      assert false;
    } else if ys != [] {
      HeadIn(ys);
      assert false;
    }
  }

  lemma HeadIn(xs: seq<string>)
    requires xs != []
    ensures xs[0] in xs
  {
  }

  /**
   * The script on its input line: `tuple(str_list)`, and the sorted list of its
   * distinct tokens, `sorted(set(tup))`. The tuple holds the whitespace-split
   * tokens, none of them empty or containing whitespace. The final list is
   * strictly ascending, so it has no duplicates. Its elements are exactly the
   * distinct tokens. Any list with those two properties equals it, so it
   * depends only on the set of tokens.
   */
  function Pipeline(line: string): (out: (seq<string>, seq<string>))
    ensures var (tup, r) := out;
      && tup == Split(line)
      && (forall k :: 0 <= k < |tup| ==> IsToken(tup[k]))
      && StrictlyAscending(r)
      && (forall t :: t in r <==> t in tup)
      && (forall other: seq<string> :: StrictlyAscending(other) && (forall t :: t in other <==> t in tup) ==> other == r)
  {
    var tup := Split(line);
    var r := SortedDistinct(tup);
    assert forall other: seq<string> :: StrictlyAscending(other) && (forall t :: t in other <==> t in tup) ==> other == r by {
      forall other: seq<string> | StrictlyAscending(other) && (forall t :: t in other <==> t in tup)
        ensures other == r
      {
        AscendingUnique(other, r);
      }
    }
    (tup, r)
  }
}

=== FILE: vowel_dict.dfy ===
/** The word dictionary: each input word mapped to the number of vowels in it. */
module VowelDict {

  /** `ovel_list`: the five vowels, lower and upper case. */
  const Vowels: seq<char> := ['a', 'e', 'i', 'o', 'u', 'A', 'E', 'I', 'O', 'U']

  /** The number of characters of `w` that are vowels. */
  function VowelCount(w: string): nat
    decreases |w|
  {
    if w == [] then 0
    else VowelCount(w[..|w| - 1]) + (if w[|w| - 1] in Vowels then 1 else 0)
  }

  /** The dictionary after the loop: each word, in input order, (re)assigned its count. */
  function WordDict(words: seq<string>): map<string, nat>
    decreases |words|
  {
    if words == [] then map[]
    else
      var w := words[|words| - 1];
      WordDict(words[..|words| - 1])[w := VowelCount(w)]
  }

  /** The script's loops building `word_dict`: the outer loop over the words and the inner loop over each word's characters. */
  method BuildWordDict(wordList: seq<string>) returns (wordDict: map<string, nat>)
    ensures wordDict == WordDict(wordList)
  {
    wordDict := map[];
    for i := 0 to |wordList|
      invariant wordDict == WordDict(wordList[..i])
    {
      var word := wordList[i];
      var count := 0;
      for j := 0 to |word|
        invariant count == VowelCount(word[..j])
      {
        assert word[..j + 1][..j] == word[..j];
        if word[j] in Vowels {
          count := count + 1;
        }
      }
      assert word[..|word|] == word;
      assert wordList[..i + 1][..i] == wordList[..i];
      wordDict := wordDict[word := count];
    }
    assert wordList[..|wordList|] == wordList;
  }

  /** Exactly a, e, i, o, u in either case are vowels; `y` is not. */
  lemma VowelsExactly(c: char)
    ensures c in Vowels <==> c in "aeiouAEIOU"
    ensures 'y' !in Vowels && 'Y' !in Vowels
  {
  }

  /** A word's count lies between 0 and its length. */
  lemma {:induction false} VowelCountBound(w: string)
    decreases |w|
    ensures VowelCount(w) <= |w|
  {
    if w != [] {
      VowelCountBound(w[..|w| - 1]);
    }
  }

  /** The count is additive over concatenation. */
  lemma {:induction false} VowelCountAppend(a: string, b: string)
    decreases |b|
    ensures VowelCount(a + b) == VowelCount(a) + VowelCount(b)
  {
    if b == [] {
      assert a + b == a;
    } else {
      var init := b[..|b| - 1];
      VowelCountAppend(a, init);
      assert (a + b)[..|a + b| - 1] == a + init;
    }
  }

  /** The positions of `w` holding a vowel. */
  function VowelPositions(w: string): set<nat> {
    set i: nat | i < |w| && w[i] in Vowels
  }

  /** The count is the number of positions holding a vowel. */
  lemma {:induction false} VowelCountPositions(w: string)
    decreases |w|
    ensures VowelCount(w) == |VowelPositions(w)|
  {
    if w != [] {
      var init := w[..|w| - 1];
      VowelCountPositions(init);
      PositionsOfLast(w);
    }
  }

  lemma PositionsOfLast(w: string)
    requires w != []
    ensures var last := |w| - 1;
      last !in VowelPositions(w[..last])
      && VowelPositions(w) == VowelPositions(w[..last]) + (if w[last] in Vowels then {last} else {})
  {
    var last := |w| - 1;
    var init := w[..last];
    forall i: nat | i < last ensures (i in VowelPositions(w) <==> i in VowelPositions(init)) {
      assert init[i] == w[i];
    }
  }

  /**
   * The keys are exactly the distinct words, and each maps to its own count, so
   * repeating a word changes nothing.
   */
  lemma {:induction false} WordDictContents(words: seq<string>)
    decreases |words|
    ensures WordDict(words).Keys == set w | w in words
    ensures forall w :: w in WordDict(words) ==> WordDict(words)[w] == VowelCount(w)
  {
    if words != [] {
      var init := words[..|words| - 1];
      WordDictContents(init);
      assert words == init + [words[|words| - 1]];
    }
  }

  /** Repeating a word does not change the dictionary. */
  lemma WordDictRepeat(words: seq<string>, w: string)
    requires w in words
    ensures WordDict(words + [w]) == WordDict(words)
  {
    assert (words + [w])[..|words|] == words;
    WordDictContents(words);
  }
}

=== FILE: wrappers.dfy ===
/** Option and Result, used for Python's `None` and for raised exceptions. */
module Wrappers {

  datatype Option<+T> = None | Some(value: T)

  /** `Err` stands for an exception the Python code raises (or lets propagate). */
  datatype Result<+T, +E> = Ok(value: T) | Err(error: E)
}
